=== FILE: README.md ===
# TreeStore, modelled in Dafny

`TreeStore` (src/helpers/TreeStore.ts) is an in-memory forest of
`{id, parent, label}` records. Identifiers are numbers or strings (modelled
as integers or strings), and a `null` parent marks a root. The store keeps four pieces of state that must
agree with each other:

- `items`, the records in insertion order;
- `itemMap`, identifier → record;
- `childrenMap`, parent key → set of child identifiers, with the key `null`
  for roots;
- `allChildrenCache`, identifier → memoised full descendant listing.

Queries: `getAll`, `getItem`, `getChildren`, `getAllChildren` (a
depth-first stack walk, memoised) and `getAllParents` (the ancestor chain,
nearest first). Mutations: `addItem`, `updateItem` with its cycle check
`assertNoCircularDependency`, and `removeItem`, which cascades to the
whole subtree. All of them go through `invalidateAllChildrenCacheFrom`, a walk
up the parent links that drops cache entries.

The model is functional. A store is an immutable value: `TreeStore.Store`
holds a `seq<Item>`, a `map<ID, Item>`, a `map<Option<ID>, set<ID>>` and a
`map<ID, seq<Item>>`. Each mutation returns the next store. A thrown
exception becomes a value: `Result` for `addItem`, and a (store, optional
error) pair for `updateItem`, because a failing cycle check may already have
filled a cache entry.

Modules, in dependency order:

- `Wrappers`: `Option` and `Result`.
- `Items`: identifiers, records, errors, and the identifier set of a
  listing. The record's `label` field is called `caption`, because `label` is
  a Dafny keyword.
- `Forest`: the parent graph.
  - `Acyclic`: every upward walk from a registered identifier ends.
  - `Height`: the exact length of that walk. It is the termination measure of
    every upward walk.
  - `Path`: the identifiers such a walk meets. The last one may be an
    unregistered ("dangling") parent.
  - `Below` and `Descendants`.
- `ForestEdits`: what storing one record, or keeping only a sub-registry,
  does to the parent graph.
- `Traversal`: the children index and `getAllChildren`'s depth-first walk.
  Child sets are unordered, so which pending child the walk takes next is
  left open.
- `TreeStore`: the state, its invariant, the constructor, the invalidation
  walk and the queries.
- `StoreEdits`: facts about deleting a closed set of identifiers, and the
  order-preserving filter of `items`.
- `Mutations`: `addItem`, the cycle check, `updateItem` and `removeItem`.
  `removeItem` is written as two loops, exactly as the source runs them: the
  stack traversal with a visited set, then the per-identifier detach loop. The
  loops are proved to compute the declarative `Removed`.
- `StoreProperties`: properties that span several operations.

The store invariant `TreeStore.Valid` has four parts:

1. the sequence and the registry hold the same records, one per
   identifier;
2. the parent graph is acyclic;
3. the children index is exact;
4. every cached listing mentions at least every live descendant.

A stronger predicate, `TreeStore.CacheSound`, says that every cached listing
is exactly a fresh traversal: each live descendant once, current records,
parents first. The constructor, `getAllChildren`, `addItem` and `updateItem`
preserve `CacheSound`. `removeItem` may break it (see below), which is why
`Valid` only asks for the weaker covering property. That weaker property is
still enough for the cycle check never to miss a real loop.

## Behaviour to be aware of

- **Removal leaves stale cache entries.** `removeItem` deletes the removed
  identifier from the registry (src/helpers/TreeStore.ts:203) before it starts
  the invalidation walk at that same identifier (:211). The walk finds no
  record there, so it drops only that identifier's own entry. Every cached
  ancestor keeps a listing that still names removed records.
  - `StoreProperties.RemoveLeavesStaleEntry` proves this for the removed
    record's parent.
  - `StoreProperties.SpuriousCircular` proves a consequence. Remove a
    record, add its identifier back as a root, then re-parent the old
    parent under it. The cycle check (:55-60) reads the stale listing and
    refuses the update as circular, although no loop would form.
- **An update that keeps the parent clears the whole ancestor chain.** The
  walk at :170 starts at the record itself, so it drops the record's own
  entry and the entry of every ancestor.
- **A failed cycle check can leave one new cache entry.** A self-parent
  refusal (:51-52) comes first and touches nothing. Otherwise the check calls
  `getAllChildren` (:55), which memoises the record's own listing (:111)
  before the exception at :57. Records, registry and index are untouched,
  and no other entry changes.
- **Unknown identifiers are not always childless.** A record may name a
  parent that is not registered. `getChildren` (:72) and `getAllChildren`
  (:91) of such an identifier list the records that name it.
- **A cache entry is a superset of the live subtree, not always an exact
  copy.** The constructor builds an empty cache, and `getAllChildren`,
  `addItem` and `updateItem` keep a cache whose entries are all exact in that
  state. After `removeItem`, an entry of a cached ancestor
  of the removed record can still name removed records, as above. A fresh
  listing (:88-111) is always exact, whatever the state of the other entries.

## Model

| member | source | states |
|---|---|---|
| TreeStore.New | src/helpers/TreeStore.ts:20-33 | Registering each record under its identifier and adding it to its parent's child set (created when missing) yields a consistent store over the same sequence with an empty, hence sound, cache, given distinct identifiers and an acyclic parent graph |
| TreeStore.Invalidate | src/helpers/TreeStore.ts:35-44 | The walk drops exactly the entries of the identifiers met walking up from the start (ending at a root or an unregistered identifier); every other entry is kept as it was |
| TreeStore.GetAll | src/helpers/TreeStore.ts:63-65 | The result is the stored sequence itself, in its order (insertion order, with removals filtered out), and it holds the live records, each identifier once, one per registry entry, each the registered record |
| TreeStore.GetItem | src/helpers/TreeStore.ts:67-69 | A record is returned exactly when the identifier occurs in the sequence, and it is that identifier's record from the sequence |
| TreeStore.GetChildren | src/helpers/TreeStore.ts:71-82 | The result lists, once each, exactly the live records whose parent is the identifier, which for an unregistered identifier are the records that name it; empty when no live record names the identifier as parent |
| TreeStore.GetAllChildren | src/helpers/TreeStore.ts:84-113 | A cached listing is returned as it is and changes nothing; otherwise the listing is computed afresh and is exact (every descendant once, current records, parents first), and the cache gains exactly this listing with nothing else changed; every listing covers every live descendant; on a sound cache every listing is exact and the cache stays sound |
| Traversal.CollectLists | src/helpers/TreeStore.ts:88-109 | On a consistent index the depth-first walk lists exactly the descendants, each once, with current records, every record after its parent's |
| Traversal.WalkDistinct | src/helpers/TreeStore.ts:96-109 | The walk, which has no visited set, never yields an identifier twice on an acyclic graph |
| Traversal.WalkComplete | src/helpers/TreeStore.ts:96-109 | The walk reaches every pending child and everything below it |
| TreeStore.Ancestors | src/helpers/TreeStore.ts:119-125 | The upward walk yields one current record per step, nearest first, each the parent of the one before, stopping at a root or an unregistered parent |
| TreeStore.AncestorsOnPath | src/helpers/TreeStore.ts:119-125 | A registered identifier is listed by the ancestor walk if and only if the walk passes through it |
| TreeStore.GetAllParents | src/helpers/TreeStore.ts:115-128 | Empty for unknown identifiers and roots; otherwise the chain of registered ancestors nearest first, and a registered identifier is in it if and only if the record lies below it |
| StoreProperties.AncestorsFirst | tests/TreeStore.test.ts:150-151 | In an exact, parents-first listing every record comes after all of its ancestors, which forces the nearest-first order on a chain |
| StoreProperties.GetAllChildrenMemo | src/helpers/TreeStore.ts:85-86 | Asking twice in a row gives the same listing and the same store |
| StoreProperties.NoChildrenNoListing | tests/TreeStore.test.ts:269 | On a sound cache, an identifier that no record names as parent (a leaf or an unknown identifier) has an empty descendant listing |
| Mutations.AddItem | src/helpers/TreeStore.ts:132-148 | Fails with AlreadyExists if and only if the identifier is taken; otherwise the record is appended and registered, its parent's child set gains exactly its identifier, every other child set is unchanged, the cache loses exactly the entries on the walk up from the parent, and consistency and soundness are kept |
| Mutations.CheckNoCycle | src/helpers/TreeStore.ts:46-61 | A missing new parent passes and changes nothing; SelfParent if and only if the new parent is the record itself; a new parent that lies below the record gives Circular, and only then whenever the record's listing is uncached or exact; the self-parent refusal changes nothing; past the self-parent test the store after the check is always the one getAllChildren of the record leaves, whatever the verdict, so the cache holds the record's listing (the cached one, or a freshly computed one added as the only new entry) and every existing entry is kept as it was |
| ForestEdits.PlaceKeepsAcyclic | src/helpers/TreeStore.ts:157-173 | Storing a record whose new parent's upward walk avoids the record keeps the parent graph acyclic |
| Mutations.UpdateItem | src/helpers/TreeStore.ts:150-174 | An unknown identifier changes nothing; a null new parent never fails; SelfParent if and only if the parent changes to the record itself; a move under a descendant gives Circular, and only then whenever the record's listing is uncached or exact; a self-parent refusal changes nothing, and a circular refusal leaves the store getAllChildren of the record leaves; on success the record is replaced in place and moves from its old parent's child set to the new one with every other set untouched; the cache loses exactly the entries of the old and new ancestors (and, when the parent is kept, the record's own), every other entry is kept, and whenever the parent changes to another record, whether the move succeeds or is refused as circular, the record's own entry is present and is the listing getAllChildren gave the check; consistency and soundness are kept |
| Mutations.CollectRemovals | src/helpers/TreeStore.ts:180-195 | The stack traversal with a visited set collects exactly the identifier and everything below it |
| Mutations.DetachAll | src/helpers/TreeStore.ts:197-205 | The per-identifier loop leaves the registry and the cache without the collected identifiers, and the index without their keys and without them in any child set |
| StoreEdits.Filter | src/helpers/TreeStore.ts:207-209 | The filtered records are records of the input whose identifiers are not removed, and every identifier that is not removed is kept |
| StoreEdits.FilterOrder | src/helpers/TreeStore.ts:207-209 | Filtering keeps the surviving records in their relative order |
| Mutations.Removed | src/helpers/TreeStore.ts:176-212 | An unknown identifier changes nothing; otherwise a record survives if and only if it is neither the identifier nor below it; survivors' records and their order are unchanged; child sets lose the removed identifiers and the removed keys; the cache loses exactly the removed identifiers' entries; the store stays consistent |
| Mutations.RemoveItem | src/helpers/TreeStore.ts:176-212 | The two loops followed by the invalidation walk compute exactly the removal described by Removed |
| StoreProperties.AddThenRemove | src/helpers/TreeStore.ts:139-209 | Adding a record that nothing lies below and then removing it restores the same sequence, the same registry and the same child sets |
| StoreProperties.RemoveLeavesStaleEntry | src/helpers/TreeStore.ts:203-211 | The parent of a removed record keeps its cache entry, which still names the removed identifier, so the cache is no longer sound |
| StoreProperties.CachedListingDecides | src/helpers/TreeStore.ts:55-60 | Re-parenting a record under an identifier that its cached listing names is refused as circular, whatever the live graph says |
| StoreProperties.SpuriousCircular | src/helpers/TreeStore.ts:55-60 | After removing a record whose parent has a cache entry and adding the identifier back as a root, re-parenting the old parent under it is refused as circular although it is safe and closes no loop |

## Left out

- Object identity and aliasing are modelled by value:
  - `getAll` hands back the caller's own array;
  - `addItem` pushes into that array;
  - `removeItem` replaces it with a new array;
  - `Object.assign` overwrites the shared record in place.
  An update is modelled as replacing the record in the registry and in the
  sequence.
- Payload fields of the generic record type beyond `id`, `parent` and `label`
  are not modelled.
- The iteration order of JavaScript `Set` and `Map` is left open:
  - child sets are `set<ID>`;
  - `getChildren` and the depth-first walk take children in an unspecified
    order, chosen once per set;
  - only properties that hold for every order are stated.
- src/main.ts, the table component and its test, and the randomised timing
  test are not part of this model. They hold application wiring, UI glue and
  timing output, with no store logic.
- TreeStore.New requires distinct identifiers and an acyclic parent graph,
  because the constructor checks neither. A duplicate would leave the sequence
  and the registry disagreeing, and a loop would make every upward walk spin.
- Mutations.AddItem requires that a new record closes no loop (it is not its
  own parent, and its parent's upward walk does not reach it), because the
  source does not check this. Such a call would make the invalidation walk
  spin forever.
- Mutations.CheckNoCycle, Mutations.UpdateItem, Mutations.Removed,
  TreeStore.GetAllChildren and TreeStore.GetChildren are ghost functions.
  They take the members of an unordered set in an order picked by choice, or
  (for Removed) name the subtree through the ghost descendant set. So they
  are specifications rather than compiled code. `Mutations.RemoveItem` is the
  compiled counterpart of Removed.
- Items.ID models a numeric identifier as an integer. Fractional numbers
  behave the same way, since only equality is used. `NaN` does not: at
  src/helpers/TreeStore.ts:51, `NaN === NaN` is false, while `Map` and `Set`
  still find `NaN` keys. So `updateItem({id: NaN, parent: NaN})` on a stored
  `NaN` root passes the self-parent test and makes the record its own
  parent. Every later upward walk from it then never ends. The model has no
  such identifier, so its proof that no update closes a loop does not cover
  this case.
- An exception's message text is not modelled; only its kind is
  (`AlreadyExists`, `SelfParent`, `Circular`).

=== FILE: forest.dfy ===
/** The parent graph of a registry (identifier -> record): upward walks,
    acyclicity, depth, ancestor chains and descendant sets.

    Walking up from a parent value `p` visits `p`'s identifier and, while the
    identifier is registered, continues with that record's parent. It stops at
    `None` (the root sentinel) and at an identifier that is not registered: the
    store never checks that a parent exists, so such "dangling" parents are
    part of the model. */
module Forest {
  import opened Wrappers
  import opened Items

  type Registry = map<ID, Item>

  /** The upward walk from `p` stops within `k` registered steps. */
  ghost predicate Finite(m: Registry, p: Option<ID>, k: nat)
    decreases k
  {
    match p
    case None => true
    case Some(x) => x !in m || (k > 0 && Finite(m, m[x].parent, k - 1))
  }

  /** No upward walk loops: from every registered identifier the walk stops. */
  ghost predicate Acyclic(m: Registry)
  {
    forall x | x in m :: exists k: nat :: Finite(m, Some(x), k)
  }

  /** Every record is stored under its own identifier. */
  ghost predicate KeyedById(m: Registry)
  {
    forall x | x in m :: m[x].id == x
  }

  /** The number of registered steps of a walk that stops within `k`. */
  ghost function Steps(m: Registry, p: Option<ID>, k: nat): nat
    requires Finite(m, p, k)
    decreases k
  {
    match p
    case None => 0
    case Some(x) => if x !in m then 0 else 1 + Steps(m, m[x].parent, k - 1)
  }

  lemma {:induction false} StepsAgree(m: Registry, p: Option<ID>, k1: nat, k2: nat)
    requires Finite(m, p, k1) && Finite(m, p, k2)
    ensures Steps(m, p, k1) == Steps(m, p, k2)
    decreases k1
  {
    match p
    case None =>
    case Some(x) =>
      if x in m {
        StepsAgree(m, m[x].parent, k1 - 1, k2 - 1);
      }
  }

  lemma StepsAgreeAll(m: Registry, p: Option<ID>, k: nat)
    requires Finite(m, p, k)
    ensures forall k': nat | Finite(m, p, k') :: Steps(m, p, k') == Steps(m, p, k)
  {
    forall k': nat | Finite(m, p, k') ensures Steps(m, p, k') == Steps(m, p, k) {
      StepsAgree(m, p, k', k);
    }
  }

  lemma FiniteFromAcyclic(m: Registry, p: Option<ID>)
    requires Acyclic(m)
    ensures exists k: nat :: Finite(m, p, k)
  {
    match p
    case None =>
      assert Finite(m, p, 0);
    case Some(x) =>
      if x !in m {
        assert Finite(m, p, 0);
      }
  }

  /** The depth of `p`: how many registered identifiers the walk from `p`
      visits. It is the measure that makes every upward walk terminate. */
  ghost function Height(m: Registry, p: Option<ID>): (h: nat)
    requires Acyclic(m)
    ensures forall k: nat | Finite(m, p, k) :: h == Steps(m, p, k)
  {
    FiniteFromAcyclic(m, p);
    var k: nat :| Finite(m, p, k);
    StepsAgreeAll(m, p, k);
    Steps(m, p, k)
  }

  lemma HeightStop(m: Registry, p: Option<ID>)
    requires Acyclic(m)
    requires p.None? || p.value !in m
    ensures Height(m, p) == 0
  {
    assert Finite(m, p, 0);
  }

  /** One step up lowers the depth by exactly one. */
  lemma HeightStep(m: Registry, x: ID)
    requires Acyclic(m) && x in m
    ensures Height(m, Some(x)) == 1 + Height(m, m[x].parent)
  {
    var k: nat :| Finite(m, Some(x), k);
    assert Finite(m, m[x].parent, k - 1);
  }

  /** The identifiers visited walking up from `p`, nearest first. The last one
      is unregistered (a dangling parent) or has no parent. */
  function Path(m: Registry, p: Option<ID>): (r: seq<ID>)
    requires Acyclic(m)
    ensures |r| > 0 <==> p.Some?
    ensures |r| > 0 ==> r[0] == p.value
    decreases Height(m, p)
  {
    match p
    case None => []
    case Some(x) =>
      if x in m then
        HeightStep(m, x);
        [x] + Path(m, m[x].parent)
      else
        [x]
  }

  /** `y` lies strictly below `a`: `a` is on the walk up from `y`'s parent. */
  ghost predicate Below(m: Registry, y: ID, a: ID)
    requires Acyclic(m)
  {
    y in m && a in Path(m, m[y].parent)
  }

  /** All registered identifiers strictly below `a` (`a` need not be registered). */
  ghost function Descendants(m: Registry, a: ID): set<ID>
    requires Acyclic(m)
  {
    set y | y in m && Below(m, y, a)
  }

  /** A registered identifier on a walk is at most as deep as the walk's start. */
  lemma {:induction false} PathHeight(m: Registry, p: Option<ID>, a: ID)
    requires Acyclic(m) && a in m && a in Path(m, p)
    ensures Height(m, Some(a)) <= Height(m, p)
    decreases Height(m, p)
  {
    var x := p.value;
    if x != a {
      HeightStep(m, x);
      PathHeight(m, m[x].parent, a);
    }
  }

  /** Acyclicity as it is used: nothing is its own ancestor. */
  lemma NotOwnAncestor(m: Registry, x: ID)
    requires Acyclic(m) && x in m
    ensures x !in Path(m, m[x].parent)
  {
    HeightStep(m, x);
    if x in Path(m, m[x].parent) {
      PathHeight(m, m[x].parent, x);
    }
  }

  /** The walk from an identifier met on a walk is the rest of that walk. */
  lemma {:induction false} PathSuffix(m: Registry, p: Option<ID>, a: ID)
    requires Acyclic(m) && a in Path(m, p)
    ensures forall b | b in Path(m, Some(a)) :: b in Path(m, p)
    decreases Height(m, p)
  {
    var x := p.value;
    if x != a {
      HeightStep(m, x);
      PathSuffix(m, m[x].parent, a);
    }
  }

  /** Two identifiers on one walk: one is on the other's walk. */
  lemma {:induction false} PathTotal(m: Registry, p: Option<ID>, a: ID, b: ID)
    requires Acyclic(m) && a in Path(m, p) && b in Path(m, p)
    ensures a in Path(m, Some(b)) || b in Path(m, Some(a))
    decreases Height(m, p)
  {
    var x := p.value;
    if x != a && x != b {
      HeightStep(m, x);
      PathTotal(m, m[x].parent, a, b);
    }
  }

  /** A child sits strictly below its parent, and so does everything below it. */
  lemma ChildBelow(m: Registry, c: ID, x: ID)
    requires Acyclic(m) && c in m && m[c].parent == Some(x)
    ensures c in Descendants(m, x)
    ensures Descendants(m, c) <= Descendants(m, x)
  {
    assert Path(m, m[c].parent)[0] == x;
    forall y | y in Descendants(m, c) ensures y in Descendants(m, x) {
      PathSuffix(m, m[y].parent, c);
      assert x in Path(m, Some(c));
    }
  }

  /** Everything below `x` is a child of `x` or below one. */
  lemma {:induction false} BelowSomeChild(m: Registry, x: ID, y: ID)
    requires Acyclic(m) && y in Descendants(m, x)
    ensures exists c :: c in m && m[c].parent == Some(x) && (c == y || y in Descendants(m, c))
    decreases Height(m, m[y].parent)
  {
    var z := m[y].parent.value;
    if z != x {
      assert z in m;
      HeightStep(m, z);
      assert z in Descendants(m, x);
      BelowSomeChild(m, x, z);
      var c :| c in m && m[c].parent == Some(x) && (c == z || z in Descendants(m, c));
      if c != z {
        PathSuffix(m, m[z].parent, c);
      }
      assert c in Path(m, Some(z));
      assert y in Descendants(m, c);
    }
  }

  /** Two distinct children of one parent head disjoint subtrees. */
  lemma SiblingsDisjoint(m: Registry, c1: ID, c2: ID, y: ID)
    requires Acyclic(m) && c1 in m && c2 in m && c1 != c2
    requires m[c1].parent == m[c2].parent
    ensures !((y == c1 || y in Descendants(m, c1)) && (y == c2 || y in Descendants(m, c2)))
  {
    if (y == c1 || y in Descendants(m, c1)) && (y == c2 || y in Descendants(m, c2)) {
      assert c1 in Path(m, Some(y)) && c2 in Path(m, Some(y));
      PathTotal(m, Some(y), c1, c2);
      if c1 in Path(m, Some(c2)) {
        SiblingBelow(m, c1, c2);
      } else {
        SiblingBelow(m, c2, c1);
      }
    }
  }

  lemma SiblingBelow(m: Registry, a: ID, b: ID)
    requires Acyclic(m) && a in m && b in m && a != b
    requires m[a].parent == m[b].parent
    ensures a !in Path(m, Some(b))
  {
    if a in Path(m, Some(b)) {
      assert a in Path(m, m[a].parent);
      NotOwnAncestor(m, a);
      assert false;
    }
  }
}

=== FILE: forest_edits.dfy ===
/** How the parent graph changes when one record is stored (an insertion, or
    a re-parenting of an existing identifier) and when records are deleted. */
module ForestEdits {
  import opened Wrappers
  import opened Items
  import opened Forest

  /** The registry after storing `it` under its identifier. */
  function Place(m: Registry, it: Item): Registry
  {
    m[it.id := it]
  }

  /** Storing `it` closes no loop: `it.id` is not met walking up from its new parent. */
  ghost predicate SafeToPlace(m: Registry, it: Item)
    requires Acyclic(m)
  {
    it.id !in Path(m, it.parent)
  }

  /** A walk that never meets `it.id` is unaffected by storing `it`. */
  lemma {:induction false} FiniteAvoid(m: Registry, it: Item, p: Option<ID>)
    requires Acyclic(m) && it.id !in Path(m, p)
    ensures Finite(Place(m, it), p, Height(m, p))
    decreases Height(m, p)
  {
    match p
    case None =>
    case Some(x) =>
      if x in m {
        HeightStep(m, x);
        FiniteAvoid(m, it, m[x].parent);
      }
  }

  /** A walk that meets `it.id` stops once the walk from `it.id` stops. */
  lemma {:induction false} FiniteThrough(m: Registry, it: Item, p: Option<ID>, k0: nat)
    requires Acyclic(m) && it.id in Path(m, p)
    requires Finite(Place(m, it), Some(it.id), k0)
    ensures exists k: nat :: Finite(Place(m, it), p, k)
    decreases Height(m, p)
  {
    var x := p.value;
    if x != it.id {
      HeightStep(m, x);
      FiniteThrough(m, it, m[x].parent, k0);
      var k: nat :| Finite(Place(m, it), m[x].parent, k);
      assert Finite(Place(m, it), p, k + 1);
    }
  }

  /** Storing a record whose identifier is not above its new parent keeps the
      parent graph acyclic. */
  lemma PlaceKeepsAcyclic(m: Registry, it: Item)
    requires Acyclic(m) && SafeToPlace(m, it)
    ensures Acyclic(Place(m, it))
  {
    var m' := Place(m, it);
    FiniteAvoid(m, it, it.parent);
    var h := Height(m, it.parent);
    assert Finite(m', Some(it.id), h + 1);
    forall y | y in m' ensures exists k: nat :: Finite(m', Some(y), k) {
      if it.id in Path(m, Some(y)) {
        FiniteThrough(m, it, Some(y), h + 1);
      } else {
        FiniteAvoid(m, it, Some(y));
      }
    }
  }

  /** A walk that never meets `it.id` is the same walk after storing `it`. */
  lemma {:induction false} PathAvoid(m: Registry, it: Item, p: Option<ID>)
    requires Acyclic(m) && Acyclic(Place(m, it)) && it.id !in Path(m, p)
    ensures Path(Place(m, it), p) == Path(m, p)
    decreases Height(m, p)
  {
    match p
    case None =>
    case Some(x) =>
      if x in m {
        HeightStep(m, x);
        PathAvoid(m, it, m[x].parent);
      }
  }

  /** After storing `it`, a walk visits only what it visited before or what the
      walk from the new parent visits; and it keeps everything it visited
      before except what lay above the replaced record. */
  lemma {:induction false} PathPlaced(m: Registry, it: Item, p: Option<ID>)
    requires Acyclic(m) && SafeToPlace(m, it) && Acyclic(Place(m, it))
    ensures forall a | a in Path(Place(m, it), p) :: a in Path(m, p) || a in Path(m, it.parent)
    ensures forall a | a in Path(m, p) ::
      a in Path(Place(m, it), p) || (it.id in m && a in Path(m, m[it.id].parent))
    decreases Height(m, p)
  {
    var m' := Place(m, it);
    match p
    case None =>
    case Some(x) =>
      if x == it.id {
        PathAvoid(m, it, it.parent);
        assert Path(m', p) == [x] + Path(m', it.parent);
      } else if x in m {
        HeightStep(m, x);
        PathPlaced(m, it, m[x].parent);
        assert Path(m', p) == [x] + Path(m', m[x].parent);
      }
  }

  /** `sub` keeps some of `m`'s records, unchanged. */
  ghost predicate SubRegistry(sub: Registry, m: Registry)
  {
    sub.Keys <= m.Keys && forall x | x in sub :: sub[x] == m[x]
  }

  lemma {:induction false} SubFinite(sub: Registry, m: Registry, p: Option<ID>, k: nat)
    requires SubRegistry(sub, m) && Finite(m, p, k)
    ensures Finite(sub, p, k)
    decreases k
  {
    match p
    case None =>
    case Some(x) =>
      if x in sub {
        SubFinite(sub, m, m[x].parent, k - 1);
      }
  }

  /** Deleting records never creates a loop. */
  lemma SubKeepsAcyclic(sub: Registry, m: Registry)
    requires SubRegistry(sub, m) && Acyclic(m)
    ensures Acyclic(sub)
  {
    forall y | y in sub ensures exists k: nat :: Finite(sub, Some(y), k) {
      var k: nat :| Finite(m, Some(y), k);
      SubFinite(sub, m, Some(y), k);
    }
  }

  /** After deleting records, a walk visits only what it visited before. */
  lemma {:induction false} SubPath(sub: Registry, m: Registry, p: Option<ID>)
    requires SubRegistry(sub, m) && Acyclic(m) && Acyclic(sub)
    ensures forall a | a in Path(sub, p) :: a in Path(m, p)
    decreases Height(m, p)
  {
    match p
    case None =>
    case Some(x) =>
      if x in sub {
        HeightStep(m, x);
        SubPath(sub, m, m[x].parent);
      }
  }
}

=== FILE: items.dfy ===
/** The records a tree store holds: an identifier, an optional parent
    identifier (None stands for the root sentinel `null`) and a label (`caption`: `label` is a Dafny keyword). */
module Items {
  import opened Wrappers

  /** Identifiers are integers or strings, and the two never compare equal.
      A numeric identifier is modelled as an integer; `NaN` is not modelled. */
  datatype ID = Num(n: int) | Str(s: string)

  datatype Item = Item(id: ID, parent: Option<ID>, caption: string)

  /** The three conditions the store raises as exceptions. */
  datatype TreeError = AlreadyExists | SelfParent | Circular

  /** The identifiers listed in a sequence of items. */
  function IdSet(r: seq<Item>): set<ID>
  {
    set i | 0 <= i < |r| :: r[i].id
  }

  /** No identifier occurs twice in `r`. */
  predicate DistinctIds(r: seq<Item>)
  {
    forall i, j | 0 <= i < j < |r| :: r[i].id != r[j].id
  }

  lemma IdSetConcat(a: seq<Item>, b: seq<Item>)
    ensures IdSet(a + b) == IdSet(a) + IdSet(b)
  {
    forall y | y in IdSet(a + b) ensures y in IdSet(a) + IdSet(b) {
      var i :| 0 <= i < |a + b| && (a + b)[i].id == y;
      if i >= |a| {
        assert b[i - |a|].id == y;
      }
    }
    forall y | y in IdSet(a) + IdSet(b) ensures y in IdSet(a + b) {
      if y in IdSet(a) {
        var i :| 0 <= i < |a| && a[i].id == y;
        assert (a + b)[i].id == y;
      } else {
        var i :| 0 <= i < |b| && b[i].id == y;
        assert (a + b)[i + |a|].id == y;
      }
    }
  }

  lemma IdSetSingleton(it: Item)
    ensures IdSet([it]) == {it.id}
  {
    assert [it][0].id == it.id;
  }

  /** No identifiers means no records. */
  lemma IdSetEmpty(r: seq<Item>)
    ensures IdSet(r) == {} <==> r == []
  {
    if r != [] {
      assert r[0].id in IdSet(r);
    }
  }
}

=== FILE: mutations.dfy ===
/** The three mutations of the store (src/helpers/TreeStore.ts): addItem,
    updateItem with its cycle check, and removeItem. Each takes an immutable
    store and returns the next one; a thrown error becomes a value. */
module Mutations {
  import opened Wrappers
  import opened Items
  import opened Forest
  import opened ForestEdits
  import opened Traversal
  import opened TreeStore
  import opened StoreEdits

  /* ------------------------------ addItem ------------------------------ */

  /** What addItem needs beyond the store invariant: a new record must not
      close a loop, which it can only do by naming itself as parent or through
      a dangling parent chain that ends at its own identifier. The source does
      not check this; such a call makes every later upward walk spin. */
  ghost predicate Addable(s: Store, it: Item)
    requires Valid(s)
  {
    it.id !in s.itemMap ==> SafeToPlace(s.itemMap, it)
  }

  lemma AppendRegistered(items: seq<Item>, m: Registry, it: Item)
    requires Registered(items, m) && it.id !in m
    ensures Registered(items + [it], Place(m, it))
  {
    var items' := items + [it];
    IdSetConcat(items, [it]);
    IdSetSingleton(it);
    forall i, j | 0 <= i < j < |items'| ensures items'[i].id != items'[j].id {
      if j == |items| {
        assert items'[i] == items[i];
        assert items[i].id in IdSet(items);
      } else {
        assert items'[i] == items[i] && items'[j] == items[j];
      }
    }
    forall i | 0 <= i < |items'| ensures items'[i].id in Place(m, it) && Place(m, it)[items'[i].id] == items'[i] {
      if i < |items| {
        assert items'[i] == items[i];
      }
    }
  }

  lemma AddedCache(s: Store, it: Item)
    requires Valid(s) && it.id !in s.itemMap && SafeToPlace(s.itemMap, it)
    ensures Acyclic(Place(s.itemMap, it))
    ensures Invalidate(Place(s.itemMap, it), s.cache, it.parent) == Invalidate(s.itemMap, s.cache, it.parent)
    ensures CacheCovers(Place(s.itemMap, it), Invalidate(s.itemMap, s.cache, it.parent))
    ensures CacheSound(s) ==> forall k | k in Invalidate(s.itemMap, s.cache, it.parent) ::
      Lists(Place(s.itemMap, it), k, s.cache[k])
  {
    var m := s.itemMap;
    var m' := Place(m, it);
    PlaceKeepsAcyclic(m, it);
    PathAvoid(m, it, it.parent);
    var mid := Invalidate(m, s.cache, it.parent);
    var cache' := Invalidate(m', s.cache, it.parent);
    assert cache'.Keys == mid.Keys;
    assert cache' == mid;
    InvalidateKeeps(m, s.cache, it.parent);
    PlacedCache(m, it, mid);
    if CacheSound(s) {
      assert forall k | k in mid :: Lists(m, k, mid[k]);
    }
  }

  lemma AddKeepsValid(s: Store, it: Item)
    requires Valid(s) && it.id !in s.itemMap && SafeToPlace(s.itemMap, it)
    ensures Acyclic(Place(s.itemMap, it))
    ensures var m' := Place(s.itemMap, it);
      var s' := Store(s.items + [it], m', AddChild(s.childrenMap, it.parent, it.id),
                      Invalidate(m', s.cache, it.parent));
      && Valid(s')
      && s'.cache == Invalidate(s.itemMap, s.cache, it.parent)
      && (CacheSound(s) ==> CacheSound(s'))
  {
    AddedCache(s, it);
    AppendRegistered(s.items, s.itemMap, it);
    RegisterKeepsIndex(s.itemMap, s.childrenMap, it);
  }

  /** addItem: a record whose identifier is taken is refused and nothing
      changes; otherwise it is appended, registered, added to its parent's
      child set (created when absent), and the cache entries of its parent
      and of every ancestor above it are dropped. */
  function AddItem(s: Store, it: Item): (r: Result<Store, TreeError>)
    requires Valid(s) && Addable(s, it)
    ensures r.Failure? <==> it.id in IdSet(s.items)
    ensures r.Failure? ==> r.error == AlreadyExists
    ensures r.Success? ==> Valid(r.value)
    ensures r.Success? ==> r.value.items == s.items + [it] && r.value.itemMap == s.itemMap[it.id := it]
    ensures r.Success? ==>
      Members(r.value.childrenMap, it.parent) == Members(s.childrenMap, it.parent) + {it.id}
    ensures r.Success? ==> forall k | k != it.parent ::
      Members(r.value.childrenMap, k) == Members(s.childrenMap, k)
    ensures r.Success? ==> r.value.cache.Keys == s.cache.Keys - set a | a in Path(s.itemMap, it.parent)
    ensures r.Success? ==> forall k | k in r.value.cache :: r.value.cache[k] == s.cache[k]
    ensures r.Success? && CacheSound(s) ==> CacheSound(r.value)
  {
    if it.id in s.itemMap then
      Failure(AlreadyExists)
    else
      AddKeepsValid(s, it);
      var m' := Place(s.itemMap, it);
      Success(Store(s.items + [it], m', AddChild(s.childrenMap, it.parent, it.id),
                    Invalidate(m', s.cache, it.parent)))
  }

  /* ------------------------ the cycle check ------------------------ */

  /** A parent whose upward walk meets `id` lies below `id`. */
  lemma AboveIsDescendant(m: Registry, p: ID, id: ID)
    requires Acyclic(m) && p != id
    ensures id in Path(m, Some(p)) ==> p in Descendants(m, id)
  {
    if id in Path(m, Some(p)) {
      assert p in m;
      assert Path(m, Some(p)) == [p] + Path(m, m[p].parent);
    }
  }

  /** assertNoCircularDependency: a missing new parent always passes; a record
      may not be its own parent; otherwise the new parent must not be among
      the record's descendants as getAllChildren reports them. That call may
      memoise the record's own listing, so the store after the check is either
      the same store or the one getAllChildren leaves, even when the check
      fails; the self-parent test comes first and touches nothing. */
  ghost function CheckNoCycle(s: Store, id: ID, np: Option<ID>): (r: (Store, Option<TreeError>))
    requires Valid(s)
    ensures Valid(r.0) && r.0 == s.(cache := r.0.cache)
    ensures np.None? ==> r == (s, None)
    ensures np == Some(id) ==> r.0 == s
    ensures r.0 == s || r.0 == GetAllChildren(s, id).1
    ensures np.Some? && np.value != id ==> r.0 == GetAllChildren(s, id).1
    ensures r.0.cache.Keys <= s.cache.Keys + {id}
    ensures forall k | k in s.cache :: k in r.0.cache && r.0.cache[k] == s.cache[k]
    ensures r.1 != Some(AlreadyExists)
    ensures r.1 == Some(SelfParent) <==> np == Some(id)
    ensures r.1.None? ==> np.None? || id !in Path(s.itemMap, np)
    ensures np.Some? && np.value != id && np.value in Descendants(s.itemMap, id) ==> r.1 == Some(Circular)
    ensures ListingExact(s, id) ==>
      (r.1 == Some(Circular) <==> np.Some? && np.value != id && np.value in Descendants(s.itemMap, id))
    ensures CacheSound(s) ==> CacheSound(r.0)
  {
    match np
    case None => (s, None)
    case Some(p) =>
      if p == id then
        (s, Some(SelfParent))
      else
        var res := GetAllChildren(s, id);
        AboveIsDescendant(s.itemMap, p, id);
        (res.1, if p in IdSet(res.0) then Some(Circular) else None)
  }

  /* ----------------------------- updateItem ----------------------------- */

  /** The records with the one whose identifier is `upd.id` replaced by `upd`. */
  function Replace(items: seq<Item>, upd: Item): (r: seq<Item>)
    ensures |r| == |items|
    ensures forall i | 0 <= i < |items| :: r[i] == if items[i].id == upd.id then upd else items[i]
  {
    seq(|items|, i requires 0 <= i < |items| => if items[i].id == upd.id then upd else items[i])
  }

  /** The children index after taking `y` out of the child set keyed by `k`,
      when there is one. */
  function RemoveChild(c: Index, k: Option<ID>, y: ID): Index
  {
    if k in c then c[k := c[k] - {y}] else c
  }

  /** Replacing a record keeps every position's identifier. */
  lemma ReplaceIds(items: seq<Item>, upd: Item)
    ensures |Replace(items, upd)| == |items|
    ensures forall i | 0 <= i < |items| :: Replace(items, upd)[i].id == items[i].id
    ensures IdSet(Replace(items, upd)) == IdSet(items)
  {
    var r := Replace(items, upd);
    forall y | y in IdSet(items) ensures y in IdSet(r) {
      var i :| 0 <= i < |items| && items[i].id == y;
      assert r[i].id == y;
    }
  }

  lemma ReplaceKeepsRegistered(items: seq<Item>, m: Registry, upd: Item)
    requires Registered(items, m) && upd.id in m
    ensures Registered(Replace(items, upd), Place(m, upd))
  {
    var r := Replace(items, upd);
    var m' := Place(m, upd);
    ReplaceIds(items, upd);
    assert DistinctIds(r) by {
      forall i, j | 0 <= i < j < |r| ensures r[i].id != r[j].id {
        assert r[i].id == items[i].id && r[j].id == items[j].id;
      }
    }
    assert m'.Keys == m.Keys;
    forall i | 0 <= i < |r| ensures r[i].id in m' && m'[r[i].id] == r[i] {
      if items[i].id != upd.id {
        assert r[i] == items[i];
      }
    }
    assert KeyedById(m');
  }

  lemma ReparentKeepsIndex(m: Registry, c: Index, upd: Item)
    requires IndexExact(m, c) && upd.id in m && KeyedById(m)
    ensures IndexExact(Place(m, upd),
      AddChild(RemoveChild(c, m[upd.id].parent, upd.id), upd.parent, upd.id))
  {
  }

  /** The store after a re-parent that passed the cycle check: the record
      moves from its old parent's child set to its new parent's, the walks
      from the old and from the new parent drop cache entries (both over the
      registry as it was, since the record is replaced last), and the record
      is replaced. */
  function Moved(s: Store, upd: Item): Store
    requires Acyclic(s.itemMap) && upd.id in s.itemMap
  {
    var m := s.itemMap;
    var was := m[upd.id].parent;
    Store(Replace(s.items, upd), Place(m, upd),
          AddChild(RemoveChild(s.childrenMap, was, upd.id), upd.parent, upd.id),
          Invalidate(m, Invalidate(m, s.cache, was), upd.parent))
  }

  /** A move keeps the record's own cache entry: the record is on neither
      its old nor its new parent's ancestor path. */
  lemma MovedKeepsOwn(s: Store, upd: Item)
    requires Acyclic(s.itemMap) && upd.id in s.itemMap
    requires upd.id !in Path(s.itemMap, upd.parent)
    ensures upd.id in s.cache ==>
      upd.id in Moved(s, upd).cache && Moved(s, upd).cache[upd.id] == s.cache[upd.id]
  {
    NotOwnAncestor(s.itemMap, upd.id);
  }

  /** The store after an update that keeps the parent: the walk from the
      record itself drops its own entry and those of all its ancestors, and
      the record is replaced. */
  function Relabelled(s: Store, upd: Item): Store
    requires Acyclic(s.itemMap) && upd.id in s.itemMap
  {
    var m := s.itemMap;
    Store(Replace(s.items, upd), Place(m, upd), s.childrenMap, Invalidate(m, s.cache, Some(upd.id)))
  }

  lemma MovedValid(s: Store, upd: Item)
    requires Valid(s) && upd.id in s.itemMap && SafeToPlace(s.itemMap, upd)
    ensures Valid(Moved(s, upd))
    ensures CacheSound(s) ==> CacheSound(Moved(s, upd))
  {
    var m := s.itemMap;
    var was := m[upd.id].parent;
    PlaceKeepsAcyclic(m, upd);
    ReplaceKeepsRegistered(s.items, m, upd);
    ReparentKeepsIndex(m, s.childrenMap, upd);
    var first := Invalidate(m, s.cache, was);
    var cache' := Invalidate(m, first, upd.parent);
    InvalidateKeeps(m, s.cache, was);
    InvalidateKeeps(m, first, upd.parent);
    PlacedCache(m, upd, cache');
    if CacheSound(s) {
      assert forall k | k in cache' :: Lists(m, k, cache'[k]);
    }
  }

  lemma RelabelledValid(s: Store, upd: Item)
    requires Valid(s) && upd.id in s.itemMap && s.itemMap[upd.id].parent == upd.parent
    ensures Valid(Relabelled(s, upd))
    ensures CacheSound(s) ==> CacheSound(Relabelled(s, upd))
  {
    RelabelledCache(s, upd);
    ReplaceKeepsRegistered(s.items, s.itemMap, upd);
    RelabelledIndex(s, upd);
    if CacheSound(s) {
      RelabelledSound(s, upd);
    }
  }

  lemma RelabelledIndex(s: Store, upd: Item)
    requires Valid(s) && upd.id in s.itemMap && s.itemMap[upd.id].parent == upd.parent
    ensures IndexExact(Place(s.itemMap, upd), s.childrenMap)
  {
  }

  lemma RelabelledSound(s: Store, upd: Item)
    requires Valid(s) && upd.id in s.itemMap && s.itemMap[upd.id].parent == upd.parent
    requires Valid(Relabelled(s, upd)) && CacheSound(s)
    ensures CacheSound(Relabelled(s, upd))
  {
    var r := Relabelled(s, upd);
    RelabelledCache(s, upd);
    forall k | k in r.cache ensures Lists(r.itemMap, k, r.cache[k]) && ParentsFirst(r.cache[k], k) {
      assert r.cache[k] == s.cache[k];
    }
  }

  lemma RelabelledCache(s: Store, upd: Item)
    requires Valid(s) && upd.id in s.itemMap && s.itemMap[upd.id].parent == upd.parent
    ensures Acyclic(Place(s.itemMap, upd))
    ensures CacheCovers(Place(s.itemMap, upd), Invalidate(s.itemMap, s.cache, Some(upd.id)))
    ensures CacheSound(s) ==> forall k | k in Invalidate(s.itemMap, s.cache, Some(upd.id)) ::
      Lists(Place(s.itemMap, upd), k, s.cache[k])
  {
    var m := s.itemMap;
    NotOwnAncestor(m, upd.id);
    assert SafeToPlace(m, upd);
    PlaceKeepsAcyclic(m, upd);
    assert Path(m, Some(upd.id)) == [upd.id] + Path(m, upd.parent);
    var cache' := Invalidate(m, s.cache, Some(upd.id));
    InvalidateKeeps(m, s.cache, Some(upd.id));
    PlacedCache(m, upd, cache');
    if CacheSound(s) {
      assert forall k | k in cache' :: Lists(m, k, cache'[k]);
    }
  }

  /** The update changes the parent of a stored record. */
  ghost predicate Reparents(s: Store, upd: Item)
  {
    upd.id in s.itemMap && s.itemMap[upd.id].parent != upd.parent
  }

  /** The requested parent lies below the record: storing it would close a loop. */
  ghost predicate ClosesLoop(s: Store, upd: Item)
    requires Valid(s)
  {
    Reparents(s, upd) && upd.parent.Some? && upd.parent.value != upd.id
    && upd.parent.value in Descendants(s.itemMap, upd.id)
  }

  /** What a successful update of a stored record leaves: the record
      replaced in place, its identifier moved into the new parent's child set
      and out of the old one with every other child set untouched, and no
      cache entry left for the record's old or new ancestors, nor, when the
      parent is kept, for the record itself; every other entry is kept as it
      was, and after a move the record's own entry, when there is one, is the
      listing getAllChildren gave the cycle check. */
  ghost predicate UpdatedAsAsked(s: Store, upd: Item, r: Store)
    requires Valid(s) && upd.id in s.itemMap
  {
    var was := s.itemMap[upd.id].parent;
    && r.items == Replace(s.items, upd)
    && r.itemMap == s.itemMap[upd.id := upd]
    && Members(r.childrenMap, upd.parent) == Members(s.childrenMap, upd.parent) + {upd.id}
    && (was != upd.parent ==> Members(r.childrenMap, was) == Members(s.childrenMap, was) - {upd.id})
    && (forall k | k != upd.parent && k != was :: Members(r.childrenMap, k) == Members(s.childrenMap, k))
    && (forall k | k in r.cache ::
         && ((k == upd.id && was != upd.parent && r.cache[k] == GetAllChildren(s, upd.id).0)
             || (k in s.cache && r.cache[k] == s.cache[k]))
         && k !in Path(s.itemMap, was)
         && k !in Path(s.itemMap, upd.parent)
         && (was == upd.parent ==> k != upd.id))
    && (forall k | k in s.cache && k !in Path(s.itemMap, was) && k !in Path(s.itemMap, upd.parent)
          && (was == upd.parent ==> k != upd.id) ::
         k in r.cache && r.cache[k] == s.cache[k])
  }

  lemma MovedAsAsked(s0: Store, s: Store, upd: Item)
    requires Valid(s0) && Valid(s) && s == s0.(cache := s.cache)
    requires s == s0 || s == GetAllChildren(s0, upd.id).1
    requires s.cache.Keys <= s0.cache.Keys + {upd.id}
    requires forall k | k in s0.cache :: k in s.cache && s.cache[k] == s0.cache[k]
    requires Reparents(s0, upd)
    ensures UpdatedAsAsked(s0, upd, Moved(s, upd))
  {
  }

  lemma RelabelledAsAsked(s: Store, upd: Item)
    requires Valid(s) && upd.id in s.itemMap && s.itemMap[upd.id].parent == upd.parent
    ensures UpdatedAsAsked(s, upd, Relabelled(s, upd))
  {
    assert Path(s.itemMap, Some(upd.id)) == [upd.id] + Path(s.itemMap, upd.parent);
    assert upd.id in Members(s.childrenMap, upd.parent);
  }

  /** updateItem: an unknown identifier is ignored. A changed parent is first
      checked (self-parent, then loop); on failure only the cache may differ.
      Otherwise the record moves between child sets, the cache is invalidated
      and the record is replaced. */
  ghost function UpdateItem(s: Store, upd: Item): (r: (Store, Option<TreeError>))
    requires Valid(s)
    ensures Valid(r.0)
    ensures upd.id !in s.itemMap ==> r == (s, None)
    ensures r.1.Some? ==> r.0 == s.(cache := r.0.cache)
    ensures r.1 == Some(SelfParent) ==> r.0 == s
    ensures r.1.Some? ==> r.0 == s || r.0 == GetAllChildren(s, upd.id).1
    ensures Reparents(s, upd) && upd.parent.Some? && upd.parent != Some(upd.id) ==>
      upd.id in r.0.cache && r.0.cache[upd.id] == GetAllChildren(s, upd.id).0
    ensures r.1 != Some(AlreadyExists)
    ensures r.1 == Some(SelfParent) <==> Reparents(s, upd) && upd.parent == Some(upd.id)
    ensures ClosesLoop(s, upd) ==> r.1 == Some(Circular)
    ensures upd.parent.None? ==> r.1.None?
    ensures ListingExact(s, upd.id) ==> (r.1 == Some(Circular) <==> ClosesLoop(s, upd))
    ensures CacheSound(s) ==> (r.1 == Some(Circular) <==> ClosesLoop(s, upd))
    ensures r.1.None? && upd.id in s.itemMap ==> UpdatedAsAsked(s, upd, r.0)
    ensures upd.id in s.itemMap && !Reparents(s, upd) ==>
      r.1.None? && r.0.cache.Keys == s.cache.Keys - set a | a in Path(s.itemMap, Some(upd.id))
    ensures CacheSound(s) ==> CacheSound(r.0)
  {
    if upd.id !in s.itemMap then
      (s, None)
    else if s.itemMap[upd.id].parent != upd.parent then
      var check := CheckNoCycle(s, upd.id, upd.parent);
      if check.1.Some? then
        check
      else
        MovedValid(check.0, upd);
        MovedAsAsked(s, check.0, upd);
        MovedKeepsOwn(check.0, upd);
        (Moved(check.0, upd), None)
    else
      RelabelledValid(s, upd);
      RelabelledAsAsked(s, upd);
      (Relabelled(s, upd), None)
  }

  /* ----------------------------- removeItem ----------------------------- */

  /** Every child of a member of `gone`, per the index, is in `gone`. */
  ghost predicate HoldsChildren(c: Index, gone: set<ID>)
  {
    forall g, y | g in gone && y in ChildIds(c, g) :: y in gone
  }

  /** A set that holds `id` and the children of its members holds `id`'s
      whole subtree. */
  lemma {:induction false} HoldsSubtree(s: Store, id: ID, gone: set<ID>, y: ID)
    requires Valid(s) && id in gone && HoldsChildren(s.childrenMap, gone)
    requires y in Descendants(s.itemMap, id)
    ensures y in gone
    decreases Height(s.itemMap, s.itemMap[y].parent)
  {
    var m := s.itemMap;
    var z := m[y].parent.value;
    assert y in ChildIds(s.childrenMap, z);
    if z != id {
      AboveIsDescendant(m, z, id);
      HeightStep(m, z);
      HoldsSubtree(s, id, gone, z);
    }
  }

  /** Pushes every member of `kids` onto `stack`, in the set's iteration order. */
  method PushAll(stack: seq<ID>, kids: set<ID>) returns (r: seq<ID>)
    ensures forall y | y in stack :: y in r
    ensures forall y | y in kids :: y in r
    ensures forall y | y in r :: y in stack || y in kids
  {
    r := stack;
    var rest := kids;
    while rest != {}
      invariant forall y | y in stack :: y in r
      invariant forall y | y in kids :: y in rest || y in r
      invariant forall y | y in r :: y in stack || y in kids
      invariant rest <= kids
    {
      var y :| y in rest;
      r := r + [y];
      rest := rest - {y};
    }
  }

  /** The traversal's invariant: everything visited or still stacked lies
      in `whole`, and every child of a visited identifier is visited or
      stacked. */
  ghost predicate Frontier(c: Index, whole: set<ID>, gone: set<ID>, stack: seq<ID>)
  {
    && gone <= whole
    && (forall y | y in stack :: y in whole)
    && (forall g, y | g in gone && y in ChildIds(c, g) :: y in gone || y in stack)
  }

  /** Visiting the popped identifier and stacking its children keeps the invariant. */
  lemma FrontierStep(s: Store, id: ID, gone: set<ID>, stack: seq<ID>, current: ID, pushed: seq<ID>)
    requires Valid(s)
    requires Frontier(s.childrenMap, Subtree(s.itemMap, id), gone, stack + [current])
    requires forall y | y in stack :: y in pushed
    requires forall y | y in ChildIds(s.childrenMap, current) :: y in pushed
    requires forall y | y in pushed :: y in stack || y in ChildIds(s.childrenMap, current)
    ensures Frontier(s.childrenMap, Subtree(s.itemMap, id), gone + {current}, pushed)
  {
    var whole := Subtree(s.itemMap, id);
    assert current in stack + [current];
    forall y | y in ChildIds(s.childrenMap, current) ensures y in whole {
      SubtreeClosed(s.itemMap, id, current, y);
    }
    forall g, y | g in gone && y in ChildIds(s.childrenMap, g) && y !in gone
      ensures y in stack || y == current
    {
      assert y in stack + [current];
    }
  }

  /** Popping an identifier already visited keeps the invariant. */
  lemma FrontierSkip(c: Index, whole: set<ID>, gone: set<ID>, stack: seq<ID>, current: ID)
    requires Frontier(c, whole, gone, stack + [current]) && current in gone
    ensures Frontier(c, whole, gone, stack)
  {
    forall g, y | g in gone && y in ChildIds(c, g) && y !in gone ensures y in stack {
      assert y in stack + [current];
    }
  }

  /** removeItem's first phase: a stack traversal from `id` with a visited
      set, which collects `id` and everything below it. */
  method CollectRemovals(s: Store, id: ID) returns (gone: set<ID>)
    requires Valid(s) && id in s.itemMap
    ensures gone == Subtree(s.itemMap, id)
  {
    ghost var whole := Subtree(s.itemMap, id);
    gone := {};
    var stack := [id];
    while stack != []
      invariant Frontier(s.childrenMap, whole, gone, stack)
      invariant id in gone || id in stack
      decreases whole - gone, |stack|
    {
      ghost var before := stack;
      var current := stack[|stack| - 1];
      stack := stack[..|stack| - 1];
      assert stack + [current] == before;
      var kids := ChildIds(s.childrenMap, current);
      if current !in gone {
        var pushed := PushAll(stack, kids);
        FrontierStep(s, id, gone, stack, current, pushed);
        gone := gone + {current};
        stack := pushed;
      } else {
        FrontierSkip(s.childrenMap, whole, gone, stack, current);
      }
    }
    FrontierDone(s, id, gone);
  }

  /** An empty stack leaves the visited set closed, hence the whole subtree. */
  lemma FrontierDone(s: Store, id: ID, gone: set<ID>)
    requires Valid(s) && id in gone && Frontier(s.childrenMap, Subtree(s.itemMap, id), gone, [])
    ensures gone == Subtree(s.itemMap, id)
  {
    assert HoldsChildren(s.childrenMap, gone);
    forall y | y in Subtree(s.itemMap, id) ensures y in gone {
      if y != id {
        HoldsSubtree(s, id, gone, y);
      }
    }
  }

  lemma MinusStep<V>(m: map<ID, V>, done: set<ID>, y: ID)
    ensures (m - done) - {y} == m - (done + {y})
  {
  }

  lemma PruneNothing(c: Index)
    ensures Prune(c, {}) == c
  {
    forall k | k in c ensures Prune(c, {})[k] == c[k] {
      assert c[k] - {} == c[k];
    }
  }

  /** Deleting `y` from its parent's child set and its own key from the index
      is one step of pruning. */
  lemma PruneStep(m: Registry, c: Index, done: set<ID>, y: ID)
    requires IndexExact(m, c) && y in m && y !in done
    ensures Prune(c, done + {y}) == RemoveChild(Prune(c, done), m[y].parent, y) - {Some(y)}
  {
    var lhs := Prune(c, done + {y});
    var rhs := RemoveChild(Prune(c, done), m[y].parent, y) - {Some(y)};
    assert lhs.Keys == rhs.Keys;
    forall k | k in lhs ensures lhs[k] == rhs[k] {
      if k != m[y].parent {
        assert y !in c[k];
      }
    }
  }

  /** removeItem's second phase: for each collected identifier, take it out
      of its parent's child set, delete its own child-set key, its record and
      its cache entry. */
  method DetachAll(s: Store, gone: set<ID>) returns (m: Registry, c: Index, cache: Cache)
    requires Valid(s) && gone <= s.itemMap.Keys
    ensures m == s.itemMap - gone
    ensures c == Prune(s.childrenMap, gone)
    ensures cache == s.cache - gone
  {
    m, c, cache := s.itemMap, s.childrenMap, s.cache;
    PruneNothing(c);
    var todo := gone;
    ghost var done: set<ID> := {};
    while todo != {}
      invariant done + todo == gone && done !! todo
      invariant m == s.itemMap - done
      invariant c == Prune(s.childrenMap, done)
      invariant cache == s.cache - done
    {
      var y :| y in todo;
      var it := m[y];
      PruneStep(s.itemMap, s.childrenMap, done, y);
      MinusStep(s.itemMap, done, y);
      MinusStep(s.cache, done, y);
      c := RemoveChild(c, it.parent, y) - {Some(y)};
      m := m - {y};
      cache := cache - {y};
      todo := todo - {y};
      done := done + {y};
    }
  }

  /** The store with `gone` (a subtree) deleted everywhere, before the final
      cache walk. */
  function Detached(s: Store, gone: set<ID>): Store
  {
    Store(Filter(s.items, gone), s.itemMap - gone, Prune(s.childrenMap, gone), s.cache - gone)
  }

  lemma DetachedValid(s: Store, id: ID)
    requires Valid(s)
    ensures Valid(Detached(s, Subtree(s.itemMap, id)))
  {
    var gone := Subtree(s.itemMap, id);
    DeleteRegistered(s, gone);
    DeleteCache(s, gone);
    SubtreeClosedDownward(s.itemMap, id);
    DeleteIndex(s.itemMap, s.childrenMap, gone);
  }

  /** What removeItem leaves: `id` and everything below it deleted from the
      records, the registry, the index and the cache; then the walk from `id`,
      which is no longer registered, drops only `id`'s own entry. Entries of
      the ancestors survive. */
  ghost function Removed(s: Store, id: ID): (r: Store)
    requires Valid(s)
    ensures Valid(r)
    ensures id !in s.itemMap ==> r == s
    ensures id in s.itemMap ==> forall y ::
      y in r.itemMap <==> y in s.itemMap && y != id && !Below(s.itemMap, y, id)
    ensures SubRegistry(r.itemMap, s.itemMap)
    ensures id in s.itemMap ==> InOrder(r.items, s.items)
    ensures id in s.itemMap ==> forall k | k in s.childrenMap ::
      k in r.childrenMap <==> k.None? || k.value !in Subtree(s.itemMap, id)
    ensures id in s.itemMap ==> forall k | k in r.childrenMap ::
      k in s.childrenMap && r.childrenMap[k] == s.childrenMap[k] - Subtree(s.itemMap, id)
    ensures id in s.itemMap ==> r.cache.Keys == s.cache.Keys - Subtree(s.itemMap, id)
    ensures forall k | k in r.cache :: r.cache[k] == s.cache[k]
  {
    if id !in s.itemMap then
      s
    else
      var d := Detached(s, Subtree(s.itemMap, id));
      DetachedValid(s, id);
      FilterOrder(s.items, Subtree(s.itemMap, id));
      InvalidateKeeps(d.itemMap, d.cache, Some(id));
      assert Path(d.itemMap, Some(id)) == [id];
      d.(cache := Invalidate(d.itemMap, d.cache, Some(id)))
  }

  /** removeItem: an unknown identifier is ignored; otherwise the subtree is
      collected, detached and filtered out, and the cache walk runs from `id`. */
  method RemoveItem(s: Store, id: ID) returns (r: Store)
    requires Valid(s)
    ensures r == Removed(s, id)
  {
    if id !in s.itemMap {
      return s;
    }
    var gone := CollectRemovals(s, id);
    var m, c, cache := DetachAll(s, gone);
    DetachedValid(s, id);
    r := Store(Filter(s.items, gone), m, c, Invalidate(m, cache, Some(id)));
  }
}

=== FILE: store_edits.dfy ===
/** Facts shared by the mutations: what storing one record, or deleting a
    closed set of records, does to descendant sets, to the children index
    and to the cache invariants. */
module StoreEdits {
  import opened Wrappers
  import opened Items
  import opened Forest
  import opened ForestEdits
  import opened Traversal
  import opened TreeStore

  /** Storing `it` changes no descendant set of an identifier that is not
      above its new parent, except by losing `it.id` when that identifier was
      above the old parent. */
  lemma PlacedDescendants(m: Registry, it: Item, k: ID)
    requires Acyclic(m) && SafeToPlace(m, it) && Acyclic(Place(m, it))
    requires k !in Path(m, it.parent)
    ensures Descendants(Place(m, it), k) <= Descendants(m, k)
    ensures it.id !in m || k !in Path(m, m[it.id].parent) ==>
      Descendants(Place(m, it), k) == Descendants(m, k)
  {
    var m' := Place(m, it);
    forall y | y in Descendants(m', k) ensures y in Descendants(m, k) {
      PathPlaced(m, it, m'[y].parent);
    }
    if it.id !in m || k !in Path(m, m[it.id].parent) {
      forall y | y in Descendants(m, k) ensures y in Descendants(m', k) {
        PathPlaced(m, it, m[y].parent);
      }
    }
  }

  /** After storing `it`, cache entries that no walk from the old or new
      parent reached still cover, and still list exactly when they did. */
  lemma PlacedCache(m: Registry, it: Item, cache: Cache)
    requires Acyclic(m) && KeyedById(m) && SafeToPlace(m, it) && Acyclic(Place(m, it))
    requires CacheCovers(m, cache)
    requires forall k | k in cache ::
      k !in Path(m, it.parent) && (it.id in m ==> k !in Path(m, m[it.id].parent))
    ensures CacheCovers(Place(m, it), cache)
    ensures (forall k | k in cache :: Lists(m, k, cache[k])) ==>
      forall k | k in cache :: Lists(Place(m, it), k, cache[k])
  {
    var m' := Place(m, it);
    forall k | k in cache ensures Descendants(m', k) <= IdSet(cache[k]) {
      PlacedDescendants(m, it, k);
    }
    if forall k | k in cache :: Lists(m, k, cache[k]) {
      forall k | k in cache ensures Lists(m', k, cache[k]) {
        PlacedDescendants(m, it, k);
        var r := cache[k];
        forall i | 0 <= i < |r| ensures r[i].id in m' && m'[r[i].id] == r[i] {
          assert r[i].id in IdSet(r);
        }
      }
    }
  }

  /** `gone` is the subtree of `id`: `id` and everything below it. */
  ghost function Subtree(m: Registry, id: ID): set<ID>
    requires Acyclic(m)
  {
    {id} + Descendants(m, id)
  }

  /** Below is transitive. */
  lemma DescendantsNest(m: Registry, a: ID, b: ID)
    requires Acyclic(m) && b in Descendants(m, a)
    ensures Descendants(m, b) <= Descendants(m, a)
  {
    forall y | y in Descendants(m, b) ensures y in Descendants(m, a) {
      PathSuffix(m, m[y].parent, b);
      assert Path(m, Some(b)) == [b] + Path(m, m[b].parent);
    }
  }

  /** The child of a member of a subtree is in the subtree. */
  lemma SubtreeClosed(m: Registry, id: ID, g: ID, y: ID)
    requires Acyclic(m) && g in Subtree(m, id) && y in m && m[y].parent == Some(g)
    ensures y in Subtree(m, id)
  {
    ChildBelow(m, y, g);
    if g != id {
      DescendantsNest(m, id, g);
    }
  }

  /** Records of `items` whose identifier is not in `gone`, in the same order. */
  function Filter(items: seq<Item>, gone: set<ID>): (r: seq<Item>)
    ensures forall i | 0 <= i < |r| :: r[i] in items && r[i].id !in gone
    ensures IdSet(r) == IdSet(items) - gone
  {
    if items == [] then []
    else
      var init := items[..|items| - 1];
      var last := items[|items| - 1];
      assert items == init + [last];
      IdSetConcat(init, [last]);
      IdSetSingleton(last);
      var kept := Filter(init, gone);
      if last.id in gone then
        kept
      else
        IdSetConcat(kept, [last]);
        kept + [last]
  }

  /** Each pair of records of `r` occurs in `items` in the same order. */
  ghost predicate InOrder(r: seq<Item>, items: seq<Item>)
  {
    forall i, j | 0 <= i < j < |r| ::
      exists a, b :: 0 <= a < b < |items| && items[a] == r[i] && items[b] == r[j]
  }

  /** Filtering keeps the survivors' relative order. */
  lemma {:induction false} FilterOrder(items: seq<Item>, gone: set<ID>)
    ensures InOrder(Filter(items, gone), items)
  {
    if items != [] {
      var init := items[..|items| - 1];
      var last := items[|items| - 1];
      var kept := Filter(init, gone);
      FilterOrder(init, gone);
      assert InOrder(kept, init);
      var r := Filter(items, gone);
      forall i, j | 0 <= i < j < |r|
        ensures exists a, b :: 0 <= a < b < |items| && items[a] == r[i] && items[b] == r[j]
      {
        if j < |kept| {
          assert r[i] == kept[i] && r[j] == kept[j];
          var a, b :| 0 <= a < b < |init| && init[a] == kept[i] && init[b] == kept[j];
          assert items[a] == r[i] && items[b] == r[j];
        } else {
          assert r == kept + [last] && r[i] == kept[i];
          assert r[i] in init;
          var a :| 0 <= a < |init| && init[a] == r[i];
          assert items[a] == r[i] && items[|items| - 1] == r[j];
        }
      }
    }
  }

  /** Filtering distinct records keeps them distinct. */
  lemma FilterDistinct(items: seq<Item>, gone: set<ID>)
    requires DistinctIds(items)
    ensures DistinctIds(Filter(items, gone))
  {
    var r := Filter(items, gone);
    FilterOrder(items, gone);
    assert InOrder(r, items);
    forall i, j | 0 <= i < j < |r| ensures r[i].id != r[j].id {
      var a, b :| 0 <= a < b < |items| && items[a] == r[i] && items[b] == r[j];
    }
  }

  /** The children index without the keys of removed identifiers and with
      removed identifiers taken out of every remaining child set. */
  function Prune(c: Index, gone: set<ID>): (r: Index)
    ensures forall k | k in r :: k in c && r[k] == c[k] - gone
    ensures forall k | k in c :: k in r <==> (k.None? || k.value !in gone)
  {
    map k | k in c && (k.None? || k.value !in gone) :: c[k] - gone
  }

  lemma DeleteRegistered(s: Store, gone: set<ID>)
    requires Valid(s)
    ensures Registered(Filter(s.items, gone), s.itemMap - gone)
  {
    var m' := s.itemMap - gone;
    FilterDistinct(s.items, gone);
    var items' := Filter(s.items, gone);
    forall i | 0 <= i < |items'| ensures items'[i].id in m' && m'[items'[i].id] == items'[i] {
      assert items'[i] in s.items;
    }
  }

  /** `gone` holds the children of its members. */
  ghost predicate ClosedDownward(m: Registry, gone: set<ID>)
  {
    forall y | y in m && m[y].parent.Some? && m[y].parent.value in gone :: y in gone
  }

  lemma SubtreeClosedDownward(m: Registry, id: ID)
    requires Acyclic(m)
    ensures ClosedDownward(m, Subtree(m, id))
  {
    forall y | y in m && m[y].parent.Some? && m[y].parent.value in Subtree(m, id)
      ensures y in Subtree(m, id)
    {
      SubtreeClosed(m, id, m[y].parent.value, y);
    }
  }

  lemma DeleteIndex(m: Registry, c: Index, gone: set<ID>)
    requires IndexExact(m, c) && ClosedDownward(m, gone)
    ensures IndexExact(m - gone, Prune(c, gone))
  {
    var m' := m - gone;
    var c' := Prune(c, gone);
    forall y | y in m' ensures m'[y].parent in c' && y in c'[m'[y].parent] {
      assert m[y].parent in c;
    }
  }

  lemma DeleteCache(s: Store, gone: set<ID>)
    requires Valid(s)
    ensures SubRegistry(s.itemMap - gone, s.itemMap)
    ensures Acyclic(s.itemMap - gone)
    ensures CacheCovers(s.itemMap - gone, s.cache - gone)
  {
    var m := s.itemMap;
    var m' := m - gone;
    assert SubRegistry(m', m);
    SubKeepsAcyclic(m', m);
    forall k | k in s.cache - gone ensures Descendants(m', k) <= IdSet((s.cache - gone)[k]) {
      forall y | y in Descendants(m', k) ensures y in Descendants(m, k) {
        SubPath(m', m, m'[y].parent);
      }
    }
  }
}

=== FILE: store_properties.dfy ===
/** Properties that relate several operations of the store: the order of a
    descendant listing, memoisation, adding then removing, and what the stale
    cache entries that removeItem leaves behind do to a later re-parent. */
module StoreProperties {
  import opened Wrappers
  import opened Items
  import opened Forest
  import opened ForestEdits
  import opened Traversal
  import opened TreeStore
  import opened StoreEdits
  import opened Mutations

  /** In a listing that is exact and parents-first, every record comes after
      all of its ancestors; for a chain this is the nearest-first order. */
  lemma {:induction false} AncestorsFirst(m: Registry, x: ID, r: seq<Item>, i: int, j: int)
    requires Acyclic(m) && Lists(m, x, r) && ParentsFirst(r, x)
    requires 0 <= i < |r| && 0 <= j < |r|
    requires Below(m, r[j].id, r[i].id)
    ensures i < j
    decreases j
  {
    var z := r[i].id;
    assert r[j].id in IdSet(r) && z in IdSet(r);
    if r[j].parent == Some(x) {
      assert z in Path(m, Some(x));
      PathSuffix(m, m[z].parent, x);
      NotOwnAncestor(m, z);
      assert false;
    } else {
      var k :| 0 <= k < j && Some(r[k].id) == r[j].parent;
      if r[k].id == z {
        assert k == i;
      } else {
        assert Path(m, Some(r[k].id)) == [r[k].id] + Path(m, m[r[k].id].parent);
        AncestorsFirst(m, x, r, i, k);
      }
    }
  }

  /** A second getAllChildren call answers from the memo: same listing, same store. */
  lemma GetAllChildrenMemo(s: Store, id: ID)
    requires Valid(s)
    ensures GetAllChildren(GetAllChildren(s, id).1, id) == GetAllChildren(s, id)
  {
  }

  /** An identifier that no record names as parent (a leaf, or an unknown
      identifier) has an empty descendant listing on a sound cache. */
  lemma NoChildrenNoListing(s: Store, id: ID)
    requires Valid(s) && CacheSound(s)
    requires forall y | y in s.itemMap :: s.itemMap[y].parent != Some(id)
    ensures GetAllChildren(s, id).0 == []
  {
    var m := s.itemMap;
    forall y | y in Descendants(m, id) ensures false {
      BelowSomeChild(m, id, y);
    }
    IdSetEmpty(GetAllChildren(s, id).0);
  }

  /** Filtering out identifiers that do not occur keeps every record. */
  lemma {:induction false} FilterKeepsAll(items: seq<Item>, gone: set<ID>)
    requires forall i | 0 <= i < |items| :: items[i].id !in gone
    ensures Filter(items, gone) == items
  {
    if items != [] {
      var init := items[..|items| - 1];
      FilterKeepsAll(init, gone);
      assert items == init + [items[|items| - 1]];
    }
  }

  /** After adding `it`, nothing lies below it when nothing lay below its
      identifier before. */
  lemma AddedIsLeaf(s: Store, it: Item)
    requires Valid(s) && it.id !in s.itemMap && SafeToPlace(s.itemMap, it)
    requires Descendants(s.itemMap, it.id) == {}
    ensures Acyclic(Place(s.itemMap, it))
    ensures Descendants(Place(s.itemMap, it), it.id) == {}
  {
    var m := s.itemMap;
    var m' := Place(m, it);
    PlaceKeepsAcyclic(m, it);
    forall y | y in m' ensures !Below(m', y, it.id) {
      if y == it.id {
        NotOwnAncestor(m', it.id);
      } else {
        PathPlaced(m, it, m[y].parent);
        assert y !in Descendants(m, it.id);
      }
    }
  }

  /** Removing an identifier that nothing lies below deletes just its record. */
  lemma RemoveLeaf(a: Store, y: ID)
    requires Valid(a) && y in a.itemMap && Descendants(a.itemMap, y) == {}
    ensures Removed(a, y).items == Filter(a.items, {y})
    ensures Removed(a, y).itemMap == a.itemMap - {y}
    ensures Removed(a, y).childrenMap == Prune(a.childrenMap, {y})
  {
    assert Subtree(a.itemMap, y) == {y};
  }

  /** Appending a record and filtering its identifier out gives the records back. */
  lemma FilterAppended(items: seq<Item>, it: Item)
    requires it.id !in IdSet(items)
    ensures Filter(items + [it], {it.id}) == items
  {
    assert (items + [it])[..|items|] == items;
    forall i | 0 <= i < |items| ensures items[i].id !in {it.id} {
      assert items[i].id in IdSet(items);
    }
    FilterKeepsAll(items, {it.id});
  }

  /** The child set under `k` after pruning `gone`. */
  lemma PruneMembers(c: Index, gone: set<ID>, k: Option<ID>)
    ensures Members(Prune(c, gone), k) ==
      if k.Some? && k.value in gone then {} else Members(c, k) - gone
  {
  }

  /** An unregistered identifier that nothing lies below is in no child set
      and keys no members. */
  lemma AbsentFromIndex(s: Store, y: ID)
    requires Valid(s) && y !in s.itemMap && Descendants(s.itemMap, y) == {}
    ensures Members(s.childrenMap, Some(y)) == {}
    ensures forall k :: y !in Members(s.childrenMap, k)
  {
  }

  lemma PlaceThenDelete(m: Registry, it: Item)
    requires it.id !in m
    ensures Place(m, it) - {it.id} == m
  {
    assert (Place(m, it) - {it.id}).Keys == m.Keys;
  }

  /** addItem's effect, for a record that nothing lies below. */
  ghost predicate AddsLeaf(s: Store, it: Item)
  {
    Valid(s) && it.id !in s.itemMap && SafeToPlace(s.itemMap, it) && Descendants(s.itemMap, it.id) == {}
  }

  lemma AddThenRemoveItems(s: Store, it: Item)
    requires AddsLeaf(s, it)
    ensures AddItem(s, it).Success?
    ensures Removed(AddItem(s, it).value, it.id).items == s.items
  {
    var a := AddItem(s, it).value;
    AddedIsLeaf(s, it);
    RemoveLeaf(a, it.id);
    FilterAppended(s.items, it);
  }

  lemma AddThenRemoveRegistry(s: Store, it: Item)
    requires AddsLeaf(s, it)
    ensures AddItem(s, it).Success?
    ensures Removed(AddItem(s, it).value, it.id).itemMap == s.itemMap
  {
    var a := AddItem(s, it).value;
    AddedIsLeaf(s, it);
    RemoveLeaf(a, it.id);
    PlaceThenDelete(s.itemMap, it);
  }

  lemma AddThenRemoveIndex(s: Store, it: Item)
    requires AddsLeaf(s, it)
    ensures AddItem(s, it).Success?
    ensures forall k :: Members(Removed(AddItem(s, it).value, it.id).childrenMap, k) == Members(s.childrenMap, k)
  {
    var a := AddItem(s, it).value;
    AddedIsLeaf(s, it);
    RemoveLeaf(a, it.id);
    AbsentFromIndex(s, it.id);
    forall k ensures Members(Prune(a.childrenMap, {it.id}), k) == Members(s.childrenMap, k) {
      PruneAdded(s.childrenMap, a.childrenMap, it.parent, it.id, k);
    }
  }

  /** Pruning an identifier that was just added to one child set, and that
      appeared nowhere before, restores that child set. */
  lemma PruneAdded(c: Index, c': Index, k0: Option<ID>, y: ID, k: Option<ID>)
    requires Members(c', k0) == Members(c, k0) + {y}
    requires forall k | k != k0 :: Members(c', k) == Members(c, k)
    requires Members(c, Some(y)) == {} && forall k :: y !in Members(c, k)
    ensures Members(Prune(c', {y}), k) == Members(c, k)
  {
    PruneMembers(c', {y}, k);
    assert y !in Members(c, k);
  }

  /** Adding a record that nothing lies below, then removing it, gives back
      the same records in the same order, the same registry and the same
      child sets (an emptied child set may be left behind). */
  lemma AddThenRemove(s: Store, it: Item)
    requires Valid(s) && it.id !in s.itemMap && SafeToPlace(s.itemMap, it)
    requires Descendants(s.itemMap, it.id) == {}
    ensures AddItem(s, it).Success?
    ensures var r := Removed(AddItem(s, it).value, it.id);
      && r.items == s.items
      && r.itemMap == s.itemMap
      && forall k :: Members(r.childrenMap, k) == Members(s.childrenMap, k)
  {
    AddThenRemoveItems(s, it);
    AddThenRemoveRegistry(s, it);
    AddThenRemoveIndex(s, it);
  }

  /** The parent of a removed identifier survives the removal, unchanged. */
  lemma RemoveKeepsParent(s: Store, id: ID)
    requires Valid(s) && id in s.itemMap && s.itemMap[id].parent.Some?
    ensures s.itemMap[id].parent.value !in Subtree(s.itemMap, id)
    ensures s.itemMap[id].parent.value in s.itemMap ==>
      s.itemMap[s.itemMap[id].parent.value].parent != Some(id)
  {
    var m := s.itemMap;
    var a := m[id].parent.value;
    NotOwnAncestor(m, id);
    if a in m {
      assert Path(m, Some(a)) == [a] + Path(m, m[a].parent);
    }
  }

  /** The parent of a removed identifier keeps its cache entry, and that
      entry still lists the removed identifier: the cache is no longer sound. */
  lemma RemoveLeavesStaleEntry(s: Store, id: ID)
    requires Valid(s) && id in s.itemMap
    requires s.itemMap[id].parent.Some? && s.itemMap[id].parent.value in s.cache
    ensures var a := s.itemMap[id].parent.value;
      var r := Removed(s, id);
      && a in r.cache
      && id in IdSet(r.cache[a])
      && id !in r.itemMap
      && !CacheSound(r)
  {
    var m := s.itemMap;
    var a := m[id].parent.value;
    var r := Removed(s, id);
    RemoveKeepsParent(s, id);
    ChildBelow(m, id, a);
    assert id in IdSet(s.cache[a]);
    assert id !in Descendants(r.itemMap, a);
    assert !Lists(r.itemMap, a, r.cache[a]);
  }

  /** A cached listing decides the cycle check: re-parenting `a` under an
      identifier its cached listing mentions is refused as circular. */
  lemma CachedListingDecides(s: Store, a: ID, np: ID)
    requires Valid(s) && a in s.itemMap && np != a
    requires s.itemMap[a].parent != Some(np)
    requires a in s.cache && np in IdSet(s.cache[a])
    ensures UpdateItem(s, s.itemMap[a].(parent := Some(np))).1 == Some(Circular)
  {
  }

  /** Removing a record whose parent `a` has a cache entry, then adding the
      identifier back as a root: `a` is still registered, unchanged, and its
      cache entry still names the identifier. */
  lemma ReAddAsRoot(s: Store, id: ID, caption: string)
    requires Valid(s) && id in s.itemMap
    requires s.itemMap[id].parent.Some?
    requires s.itemMap[id].parent.value in s.itemMap
    requires s.itemMap[id].parent.value in s.cache
    ensures Addable(Removed(s, id), Item(id, None, caption))
    ensures AddItem(Removed(s, id), Item(id, None, caption)).Success?
    ensures var s2 := AddItem(Removed(s, id), Item(id, None, caption)).value;
      var a := s.itemMap[id].parent.value;
      && a != id
      && a in s2.itemMap && s2.itemMap[a] == s.itemMap[a]
      && id in s2.itemMap && s2.itemMap[id].parent.None?
      && a in s2.cache && id in IdSet(s2.cache[a])
  {
    var m := s.itemMap;
    var a := m[id].parent.value;
    var s1 := Removed(s, id);
    RemoveLeavesStaleEntry(s, id);
    RemoveKeepsParent(s, id);
    var it := Item(id, None, caption);
    assert SafeToPlace(s1.itemMap, it);
    var s2 := AddItem(s1, it).value;
    assert a in s2.cache && s2.cache[a] == s1.cache[a];
  }

  /** Putting a record under a root other than itself is safe and closes no loop. */
  lemma UnderRootIsSafe(s: Store, a: ID, root: ID)
    requires Valid(s) && a in s.itemMap && root in s.itemMap && a != root
    requires s.itemMap[root].parent.None?
    ensures var upd := s.itemMap[a].(parent := Some(root));
      SafeToPlace(s.itemMap, upd) && !ClosesLoop(s, upd)
  {
    assert Path(s.itemMap, Some(root)) == [root];
    assert Path(s.itemMap, s.itemMap[root].parent) == [];
  }

  /** A spurious loop report: remove a record whose parent `a` has a cache
      entry, add the identifier back as a root, then re-parent `a` under it.
      No loop would form, yet the stale entry of `a` still lists the
      identifier, so the update is refused as circular. */
  lemma SpuriousCircular(s: Store, id: ID, caption: string)
    requires Valid(s) && id in s.itemMap
    requires s.itemMap[id].parent.Some?
    requires s.itemMap[id].parent.value in s.itemMap
    requires s.itemMap[id].parent.value in s.cache
    ensures Addable(Removed(s, id), Item(id, None, caption))
    ensures AddItem(Removed(s, id), Item(id, None, caption)).Success?
    ensures var s2 := AddItem(Removed(s, id), Item(id, None, caption)).value;
      var a := s.itemMap[id].parent.value;
      && a in s2.itemMap
      && var upd := s2.itemMap[a].(parent := Some(id));
      && SafeToPlace(s2.itemMap, upd)
      && !ClosesLoop(s2, upd)
      && UpdateItem(s2, upd).1 == Some(Circular)
  {
    var a := s.itemMap[id].parent.value;
    ReAddAsRoot(s, id, caption);
    var s2 := AddItem(Removed(s, id), Item(id, None, caption)).value;
    UnderRootIsSafe(s2, a, id);
    CachedListingDecides(s2, a, id);
  }
}

=== FILE: traversal.dfy ===
/** The children index (parent key -> set of child identifiers, key None for
    roots) and the depth-first descendant traversal that `getAllChildren`
    runs over it. */
module Traversal {
  import opened Wrappers
  import opened Items
  import opened Forest

  type Index = map<Option<ID>, set<ID>>

  /** Every registered member of a child set names the set's key as its parent. */
  ghost predicate PointsBack(m: Registry, c: Index)
  {
    forall k, y | k in c && y in c[k] && y in m :: m[y].parent == k
  }

  /** Every registered record is in the child set keyed by its parent. */
  ghost predicate Complete(m: Registry, c: Index)
  {
    forall y | y in m :: m[y].parent in c && y in c[m[y].parent]
  }

  /** The child set under key `k`, or the empty set when there is none. */
  function Members(c: Index, k: Option<ID>): set<ID>
  {
    if k in c then c[k] else {}
  }

  /** The child set of `x`, or the empty set when `x` has none. */
  function ChildIds(c: Index, x: ID): set<ID>
  {
    Members(c, Some(x))
  }

  /** Registered identifiers not on the walk up from `x`: the traversal's
      termination measure, which shrinks on each step down to a child. */
  ghost function Unvisited(m: Registry, x: ID): set<ID>
    requires Acyclic(m)
  {
    m.Keys - set a | a in Path(m, Some(x))
  }

  lemma UnvisitedShrinks(m: Registry, y: ID, x: ID)
    requires Acyclic(m) && y in m && m[y].parent == Some(x)
    ensures Unvisited(m, y) < Unvisited(m, x)
  {
    NotOwnAncestor(m, y);
    assert Path(m, Some(y)) == [y] + Path(m, Some(x));
    assert y in Unvisited(m, x) && y !in Unvisited(m, y);
  }

  /** Depth-first, pre-order visit of the pending child identifiers `pending`
      of `x`: the next child's record, then its whole subtree, then the other
      pending children. Identifiers missing from the registry are skipped. The
      child set is unordered, so which pending child comes next is left open. */
  ghost function Walk(m: Registry, c: Index, x: ID, pending: set<ID>): seq<Item>
    requires Acyclic(m) && PointsBack(m, c)
    requires forall y | y in pending && y in m :: m[y].parent == Some(x)
    decreases Unvisited(m, x), pending
  {
    if pending == {} then []
    else
      var y :| y in pending;
      if y in m then
        UnvisitedShrinks(m, y, x);
        [m[y]] + Walk(m, c, y, ChildIds(c, y)) + Walk(m, c, x, pending - {y})
      else
        Walk(m, c, x, pending - {y})
  }

  /** The traversal from `x`'s own child set. */
  ghost function Collect(m: Registry, c: Index, x: ID): seq<Item>
    requires Acyclic(m) && PointsBack(m, c)
  {
    Walk(m, c, x, ChildIds(c, x))
  }

  /** `r` holds current records only, each identifier once, and exactly the
      descendants of `x`. */
  ghost predicate Lists(m: Registry, x: ID, r: seq<Item>)
    requires Acyclic(m)
  {
    && (forall i | 0 <= i < |r| :: r[i].id in m && m[r[i].id] == r[i])
    && DistinctIds(r)
    && IdSet(r) == Descendants(m, x)
  }

  /** Every record in `r` comes after its parent's, unless its parent is `x`. */
  ghost predicate ParentsFirst(r: seq<Item>, x: ID)
  {
    forall i | 0 <= i < |r| ::
      r[i].parent == Some(x) || exists j :: 0 <= j < i && Some(r[j].id) == r[i].parent
  }

  /** `y` is one of the pending identifiers or lies below one of them. */
  ghost predicate UnderPending(m: Registry, pending: set<ID>, y: ID)
    requires Acyclic(m)
  {
    exists p :: p in pending && p in m && p in Path(m, Some(y))
  }

  /** One unfolding of `Walk`, naming the pending child it visits first. */
  lemma WalkSplit(m: Registry, c: Index, x: ID, pending: set<ID>) returns (y: ID)
    requires Acyclic(m) && PointsBack(m, c)
    requires forall z | z in pending && z in m :: m[z].parent == Some(x)
    requires pending != {}
    ensures y in pending
    ensures y in m ==> Unvisited(m, y) < Unvisited(m, x)
    ensures y in m ==>
      Walk(m, c, x, pending) == [m[y]] + Walk(m, c, y, ChildIds(c, y)) + Walk(m, c, x, pending - {y})
    ensures y !in m ==> Walk(m, c, x, pending) == Walk(m, c, x, pending - {y})
  {
    y :| y in pending && Walk(m, c, x, pending) == (if y in m then
        [m[y]] + Walk(m, c, y, ChildIds(c, y)) + Walk(m, c, x, pending - {y})
      else Walk(m, c, x, pending - {y}));
    if y in m {
      UnvisitedShrinks(m, y, x);
    }
  }

  /** The traversal yields current records of identifiers below `x`, each
      under one of the pending children. */
  lemma {:induction false} WalkInside(m: Registry, c: Index, x: ID, pending: set<ID>)
    requires Acyclic(m) && KeyedById(m) && PointsBack(m, c)
    requires forall y | y in pending && y in m :: m[y].parent == Some(x)
    ensures var r := Walk(m, c, x, pending);
      forall i | 0 <= i < |r| ::
        && r[i].id in m && m[r[i].id] == r[i]
        && r[i].id in Descendants(m, x)
        && UnderPending(m, pending, r[i].id)
    decreases Unvisited(m, x), pending
  {
    if pending != {} {
      var y := WalkSplit(m, c, x, pending);
      WalkInside(m, c, x, pending - {y});
      if y in m {
        var sub := Walk(m, c, y, ChildIds(c, y));
        WalkInside(m, c, y, ChildIds(c, y));
        ChildBelow(m, y, x);
        assert y in Path(m, Some(y));
        forall i | 0 <= i < |sub| ensures UnderPending(m, pending, sub[i].id) {
          PathSuffix(m, m[sub[i].id].parent, y);
          assert y in Path(m, Some(sub[i].id));
        }
      }
    }
  }

  /** The traversal yields no identifier twice. */
  lemma {:induction false} WalkDistinct(m: Registry, c: Index, x: ID, pending: set<ID>)
    requires Acyclic(m) && KeyedById(m) && PointsBack(m, c)
    requires forall y | y in pending && y in m :: m[y].parent == Some(x)
    ensures DistinctIds(Walk(m, c, x, pending))
    decreases Unvisited(m, x), pending
  {
    if pending != {} {
      var y := WalkSplit(m, c, x, pending);
      WalkDistinct(m, c, x, pending - {y});
      if y in m {
        var sub := Walk(m, c, y, ChildIds(c, y));
        var rest := Walk(m, c, x, pending - {y});
        WalkDistinct(m, c, y, ChildIds(c, y));
        WalkInside(m, c, y, ChildIds(c, y));
        WalkInside(m, c, x, pending - {y});
        forall i | 0 <= i < |rest| ensures y != rest[i].id && rest[i].id !in IdSet(sub) {
          var z := rest[i].id;
          var q :| q in pending - {y} && q in m && q in Path(m, Some(z));
          assert z == q || z in Descendants(m, q);
          SiblingsDisjoint(m, y, q, z);
        }
        NotOwnAncestor(m, y);
        assert y !in IdSet(sub);
        DistinctJoin(m[y], sub, rest);
      }
    }
  }

  /** A record followed by two identifier-disjoint distinct listings, neither
      holding the record's identifier, is distinct. */
  lemma DistinctJoin(a: Item, sub: seq<Item>, rest: seq<Item>)
    requires DistinctIds(sub) && DistinctIds(rest) && a.id !in IdSet(sub)
    requires forall i | 0 <= i < |rest| :: a.id != rest[i].id && rest[i].id !in IdSet(sub)
    ensures DistinctIds([a] + sub + rest)
  {
    var r := [a] + sub + rest;
    forall i, j | 0 <= i < j < |r| ensures r[i].id != r[j].id {
      if i == 0 {
        if j <= |sub| {
          assert r[j] == sub[j - 1];
        } else {
          assert r[j] == rest[j - 1 - |sub|];
        }
      } else if i <= |sub| {
        if j > |sub| {
          assert r[i] == sub[i - 1] && r[j] == rest[j - 1 - |sub|];
        }
      }
    }
  }

  /** The traversal is pre-order: a record never precedes its parent's. */
  lemma {:induction false} WalkParentsFirst(m: Registry, c: Index, x: ID, pending: set<ID>)
    requires Acyclic(m) && KeyedById(m) && PointsBack(m, c)
    requires forall y | y in pending && y in m :: m[y].parent == Some(x)
    ensures ParentsFirst(Walk(m, c, x, pending), x)
    decreases Unvisited(m, x), pending
  {
    if pending != {} {
      var y := WalkSplit(m, c, x, pending);
      WalkParentsFirst(m, c, x, pending - {y});
      if y in m {
        var r := Walk(m, c, x, pending);
        var sub := Walk(m, c, y, ChildIds(c, y));
        var rest := Walk(m, c, x, pending - {y});
        WalkParentsFirst(m, c, y, ChildIds(c, y));
        forall i | 0 <= i < |r|
          ensures r[i].parent == Some(x) || exists j :: 0 <= j < i && Some(r[j].id) == r[i].parent
        {
          if 1 <= i < 1 + |sub| {
            var k := i - 1;
            assert r[i] == sub[k];
            if sub[k].parent != Some(y) {
              var j :| 0 <= j < k && Some(sub[j].id) == sub[k].parent;
              assert r[j + 1] == sub[j];
            } else {
              assert r[0].id == y;
            }
          } else if 1 + |sub| <= i {
            var k := i - 1 - |sub|;
            assert r[i] == rest[k];
            if rest[k].parent != Some(x) {
              var j :| 0 <= j < k && Some(rest[j].id) == rest[k].parent;
              assert r[j + 1 + |sub|] == rest[j];
            }
          }
        }
      }
    }
  }

  /** On a complete index, the traversal reaches every pending child and
      everything below it. */
  lemma {:induction false} WalkComplete(m: Registry, c: Index, x: ID, pending: set<ID>)
    requires Acyclic(m) && KeyedById(m) && PointsBack(m, c) && Complete(m, c)
    requires forall y | y in pending && y in m :: m[y].parent == Some(x)
    ensures forall p, z | p in pending && p in m && (z == p || z in Descendants(m, p)) ::
      z in IdSet(Walk(m, c, x, pending))
    decreases Unvisited(m, x), pending
  {
    if pending != {} {
      var y := WalkSplit(m, c, x, pending);
      var r := Walk(m, c, x, pending);
      var rest := Walk(m, c, x, pending - {y});
      WalkComplete(m, c, x, pending - {y});
      forall p, z | p in pending && p in m && (z == p || z in Descendants(m, p))
        ensures z in IdSet(r)
      {
        if p != y {
          assert z in IdSet(rest);
          var i :| 0 <= i < |rest| && rest[i].id == z;
          if y in m {
            var sub := Walk(m, c, y, ChildIds(c, y));
            assert r[i + 1 + |sub|] == rest[i];
          }
        } else if z == y {
          assert r[0].id == z;
        } else {
          var sub := Walk(m, c, y, ChildIds(c, y));
          WalkComplete(m, c, y, ChildIds(c, y));
          BelowSomeChild(m, y, z);
          var g :| g in m && m[g].parent == Some(y) && (g == z || z in Descendants(m, g));
          assert z in IdSet(sub);
          var i :| 0 <= i < |sub| && sub[i].id == z;
          assert r[i + 1] == sub[i];
        }
      }
    }
  }

  /** On a consistent index, the traversal from `x` lists exactly the
      descendants of `x`, each once, parents before their children. */
  lemma CollectLists(m: Registry, c: Index, x: ID)
    requires Acyclic(m) && KeyedById(m) && PointsBack(m, c) && Complete(m, c)
    ensures Lists(m, x, Collect(m, c, x))
    ensures ParentsFirst(Collect(m, c, x), x)
  {
    var r := Collect(m, c, x);
    assert r == Walk(m, c, x, ChildIds(c, x));
    WalkInside(m, c, x, ChildIds(c, x));
    WalkDistinct(m, c, x, ChildIds(c, x));
    WalkParentsFirst(m, c, x, ChildIds(c, x));
    WalkComplete(m, c, x, ChildIds(c, x));
    forall y | y in Descendants(m, x) ensures y in IdSet(r) {
      BelowSomeChild(m, x, y);
    }
  }
}

=== FILE: tree_store.dfy ===
/** The store's state, its consistency invariant, its constructor, its cache
    invalidation walk and its read-only queries (src/helpers/TreeStore.ts). */
module TreeStore {
  import opened Wrappers
  import opened Items
  import opened Forest
  import opened Traversal

  /** Memoised descendant listings, keyed by the identifier they were asked for. */
  type Cache = map<ID, seq<Item>>

  /** `items` in insertion order, the identifier -> record registry, the
      children index and the descendant cache. */
  datatype Store = Store(items: seq<Item>, itemMap: Registry, childrenMap: Index, cache: Cache)

  /** The sequence and the registry hold the same records, one per identifier. */
  ghost predicate Registered(items: seq<Item>, m: Registry)
  {
    && DistinctIds(items)
    && IdSet(items) == m.Keys
    && (forall i | 0 <= i < |items| :: items[i].id in m && m[items[i].id] == items[i])
    && KeyedById(m)
  }

  /** Every live record is in its parent's child set and nowhere else, and
      child sets name live identifiers only. */
  ghost predicate IndexExact(m: Registry, c: Index)
  {
    && (forall k, y | k in c && y in c[k] :: y in m && m[y].parent == k)
    && Complete(m, c)
  }

  /** A cached listing mentions at least every live descendant. Removal leaves
      supersets behind, so this, and not equality, is what the store keeps. */
  ghost predicate CacheCovers(m: Registry, cache: Cache)
    requires Acyclic(m)
  {
    forall k | k in cache :: Descendants(m, k) <= IdSet(cache[k])
  }

  ghost predicate Valid(s: Store)
  {
    && Registered(s.items, s.itemMap)
    && Acyclic(s.itemMap)
    && IndexExact(s.itemMap, s.childrenMap)
    && CacheCovers(s.itemMap, s.cache)
  }

  /** Every cached listing equals a fresh traversal: the live descendants,
      each once, with current records, parents first. */
  ghost predicate CacheSound(s: Store)
    requires Valid(s)
  {
    forall k | k in s.cache :: Lists(s.itemMap, k, s.cache[k]) && ParentsFirst(s.cache[k], k)
  }

  /** The listing getAllChildren would return for `id` is exact: either it
      is computed afresh, or the memoised one still lists exactly the live
      descendants. */
  ghost predicate ListingExact(s: Store, id: ID)
    requires Valid(s)
  {
    id !in s.cache || Lists(s.itemMap, id, s.cache[id])
  }

  /** The registry built by storing each record under its identifier in turn. */
  function RegistryOf(items: seq<Item>): Registry
  {
    if items == [] then map[]
    else RegistryOf(items[..|items| - 1])[items[|items| - 1].id := items[|items| - 1]]
  }

  /** The children index after adding `y` to the child set keyed by `k`,
      creating the set when it is absent. */
  function AddChild(c: Index, k: Option<ID>, y: ID): (r: Index)
    ensures r.Keys == c.Keys + {k}
    ensures r[k] == (if k in c then c[k] else {}) + {y}
    ensures forall k' | k' in c && k' != k :: r[k'] == c[k']
  {
    var kids := if k in c then c[k] else {};
    c[k := kids + {y}]
  }

  /** The constructor: one pass over the records, registering each and adding
      it to its parent's child set. The input is trusted: the source checks
      neither distinct identifiers nor acyclicity, so both are required. */
  method New(items: seq<Item>) returns (s: Store)
    requires DistinctIds(items)
    requires Acyclic(RegistryOf(items))
    ensures Valid(s) && CacheSound(s)
    ensures s.items == items && s.cache == map[]
  {
    var m: Registry := map[];
    var c: Index := map[];
    var i := 0;
    while i < |items|
      invariant 0 <= i <= |items|
      invariant m == RegistryOf(items[..i])
      invariant m.Keys == IdSet(items[..i])
      invariant forall j | 0 <= j < i :: items[j].id in m && m[items[j].id] == items[j]
      invariant IndexExact(m, c)
    {
      NewStep(items, i, m, c);
      var it := items[i];
      m := m[it.id := it];
      c := AddChild(c, it.parent, it.id);
      i := i + 1;
    }
    assert items[..|items|] == items;
    NewDone(items, m, c);
    s := Store(items, m, c, map[]);
  }

  /** After the last turn the constructed store is consistent. */
  lemma NewDone(items: seq<Item>, m: Registry, c: Index)
    requires DistinctIds(items) && Acyclic(m) && IndexExact(m, c)
    requires m.Keys == IdSet(items)
    requires forall j | 0 <= j < |items| :: items[j].id in m && m[items[j].id] == items[j]
    ensures Valid(Store(items, m, c, map[])) && CacheSound(Store(items, m, c, map[]))
  {
    forall x | x in m ensures m[x].id == x {
      var j :| 0 <= j < |items| && items[j].id == x;
    }
  }

  /** One turn of the constructor's loop keeps its invariant. */
  lemma NewStep(items: seq<Item>, i: nat, m: Registry, c: Index)
    requires DistinctIds(items) && i < |items|
    requires m == RegistryOf(items[..i]) && m.Keys == IdSet(items[..i])
    requires forall j | 0 <= j < i :: items[j].id in m && m[items[j].id] == items[j]
    requires IndexExact(m, c)
    ensures var it := items[i];
      var m' := m[it.id := it];
      && m' == RegistryOf(items[..i + 1])
      && m'.Keys == IdSet(items[..i + 1])
      && (forall j | 0 <= j < i + 1 :: items[j].id in m' && m'[items[j].id] == items[j])
      && IndexExact(m', AddChild(c, it.parent, it.id))
  {
    NewStepRegistry(items, i, m);
    RegisterKeepsIndex(m, c, items[i]);
  }

  /** The registry half of one turn: the next record is new and is stored. */
  lemma NewStepRegistry(items: seq<Item>, i: nat, m: Registry)
    requires DistinctIds(items) && i < |items|
    requires m == RegistryOf(items[..i]) && m.Keys == IdSet(items[..i])
    requires forall j | 0 <= j < i :: items[j].id in m && m[items[j].id] == items[j]
    ensures items[i].id !in m
    ensures var m' := m[items[i].id := items[i]];
      && m' == RegistryOf(items[..i + 1])
      && m'.Keys == IdSet(items[..i + 1])
      && (forall j | 0 <= j < i + 1 :: items[j].id in m' && m'[items[j].id] == items[j])
  {
    var it := items[i];
    assert items[..i + 1] == items[..i] + [it];
    assert items[..i + 1][..i] == items[..i];
    IdSetConcat(items[..i], [it]);
    IdSetSingleton(it);
  }

  /** Registering a new record and adding it to its parent's child set keeps
      the index exact. */
  lemma RegisterKeepsIndex(m: Registry, c: Index, it: Item)
    requires IndexExact(m, c) && it.id !in m
    ensures IndexExact(m[it.id := it], AddChild(c, it.parent, it.id))
  {
  }

  /** The cache after the walk that starts at `p` and goes up through the
      registry, dropping the entry of every identifier it meets (the last one
      may be unregistered). */
  function Invalidate(m: Registry, cache: Cache, p: Option<ID>): (r: Cache)
    requires Acyclic(m)
    ensures r.Keys == cache.Keys - set a | a in Path(m, p)
    ensures forall k | k in r :: r[k] == cache[k]
    decreases Height(m, p)
  {
    match p
    case None => cache
    case Some(x) =>
      var dropped := cache - {x};
      if x in m then
        HeightStep(m, x);
        Invalidate(m, dropped, m[x].parent)
      else
        dropped
  }

  /** Dropping entries keeps the remaining ones as they were. */
  lemma InvalidateKeeps(m: Registry, cache: Cache, p: Option<ID>)
    requires Acyclic(m) && CacheCovers(m, cache)
    ensures CacheCovers(m, Invalidate(m, cache, p))
  {
  }

  /** getAll: the stored sequence itself, so insertion order and the order
      left by removals carry over; it holds the live records, once each. */
  function GetAll(s: Store): (r: seq<Item>)
    requires Valid(s)
    ensures r == s.items
    ensures DistinctIds(r) && |r| == |s.itemMap|
    ensures forall i | 0 <= i < |r| :: r[i].id in s.itemMap && s.itemMap[r[i].id] == r[i]
    ensures IdSet(r) == s.itemMap.Keys
  {
    DistinctIdsCount(s.items);
    s.items
  }

  /** Distinct identifiers: as many identifiers as records. */
  lemma {:induction false} DistinctIdsCount(r: seq<Item>)
    requires DistinctIds(r)
    ensures |IdSet(r)| == |r|
  {
    if r != [] {
      var init := r[..|r| - 1];
      DistinctIdsCount(init);
      assert IdSet(r) == IdSet(init) + {r[|r| - 1].id};
      assert r[|r| - 1].id !in IdSet(init);
    }
  }

  /** getItem: the record stored under `id`, or nothing. */
  function GetItem(s: Store, id: ID): (r: Option<Item>)
    requires Valid(s)
    ensures r.Some? <==> id in IdSet(s.items)
    ensures r.Some? ==> r.value.id == id && r.value in s.items
  {
    if id in s.itemMap then
      var i :| 0 <= i < |s.items| && s.items[i].id == id;
      Some(s.itemMap[id])
    else
      None
  }

  /** The records of the identifiers in `ids`, in the set's (unspecified)
      iteration order, skipping identifiers that are not registered. */
  ghost function RecordsOf(m: Registry, ids: set<ID>): seq<Item>
    decreases ids
  {
    if ids == {} then []
    else
      var y :| y in ids;
      (if y in m then [m[y]] else []) + RecordsOf(m, ids - {y})
  }

  lemma {:induction false} RecordsOfFacts(m: Registry, ids: set<ID>)
    requires KeyedById(m)
    ensures var r := RecordsOf(m, ids);
      && DistinctIds(r)
      && IdSet(r) == ids * m.Keys
      && (forall i | 0 <= i < |r| :: r[i].id in m && m[r[i].id] == r[i])
    decreases ids
  {
    if ids != {} {
      var y :| y in ids && RecordsOf(m, ids) ==
        (if y in m then [m[y]] else []) + RecordsOf(m, ids - {y});
      RecordsOfFacts(m, ids - {y});
      var rest := RecordsOf(m, ids - {y});
      var r := RecordsOf(m, ids);
      if y in m {
        assert r == [m[y]] + rest;
        IdSetConcat([m[y]], rest);
        IdSetSingleton(m[y]);
        forall j | 0 <= j < |rest| ensures rest[j].id != y {
        }
      } else {
        assert r == rest;
        assert (ids - {y}) * m.Keys == ids * m.Keys;
      }
    }
  }

  /** getChildren: the live records whose parent is `id`. */
  ghost function GetChildren(s: Store, id: ID): (r: seq<Item>)
    requires Valid(s)
    ensures DistinctIds(r)
    ensures forall i | 0 <= i < |r| :: r[i].id in s.itemMap && s.itemMap[r[i].id] == r[i]
    ensures IdSet(r) == set y | y in s.itemMap && s.itemMap[y].parent == Some(id)
  {
    RecordsOfFacts(s.itemMap, ChildIds(s.childrenMap, id));
    RecordsOf(s.itemMap, ChildIds(s.childrenMap, id))
  }

  /** getAllChildren: the cached listing when there is one, otherwise a fresh
      traversal, which is then memoised. Returns the listing and the store. */
  ghost function GetAllChildren(s: Store, id: ID): (r: (seq<Item>, Store))
    requires Valid(s)
    ensures Valid(r.1)
    ensures r.1 == s.(cache := r.1.cache)
    ensures r.1.cache == s.cache[id := r.0]
    ensures id in s.cache ==> r == (s.cache[id], s)
    ensures Descendants(s.itemMap, id) <= IdSet(r.0)
    ensures CacheSound(s) ==> CacheSound(r.1)
    ensures id !in s.cache ==> Lists(s.itemMap, id, r.0) && ParentsFirst(r.0, id)
    ensures CacheSound(s) ==> Lists(s.itemMap, id, r.0) && ParentsFirst(r.0, id)
  {
    if id in s.cache then
      (s.cache[id], s)
    else
      CollectLists(s.itemMap, s.childrenMap, id);
      var listing := Collect(s.itemMap, s.childrenMap, id);
      (listing, s.(cache := s.cache[id := listing]))
  }

  /** The registered records met walking up from `p`, nearest first. */
  function Ancestors(m: Registry, p: Option<ID>): (r: seq<Item>)
    requires Acyclic(m) && KeyedById(m)
    ensures |r| == Height(m, p)
    ensures forall i | 0 <= i < |r| :: r[i].id in m && m[r[i].id] == r[i]
    ensures |r| > 0 ==> Some(r[0].id) == p
    ensures forall i | 0 <= i < |r| - 1 :: r[i].parent == Some(r[i + 1].id)
    ensures |r| > 0 ==> r[|r| - 1].parent.None? || r[|r| - 1].parent.value !in m
    decreases Height(m, p)
  {
    match p
    case None => HeightStop(m, p); []
    case Some(x) =>
      if x !in m then
        HeightStop(m, p);
        []
      else
        HeightStep(m, x);
        [m[x]] + Ancestors(m, m[x].parent)
  }

  /** The ancestors listed are exactly the registered identifiers on the walk. */
  lemma {:induction false} AncestorsOnPath(m: Registry, p: Option<ID>)
    requires Acyclic(m) && KeyedById(m)
    ensures forall a | a in m :: a in IdSet(Ancestors(m, p)) <==> a in Path(m, p)
    decreases Height(m, p)
  {
    match p
    case None =>
    case Some(x) =>
      if x in m {
        HeightStep(m, x);
        var rest := Ancestors(m, m[x].parent);
        AncestorsOnPath(m, m[x].parent);
        assert Ancestors(m, p) == [m[x]] + rest;
        IdSetConcat([m[x]], rest);
        IdSetSingleton(m[x]);
      }
  }

  /** getAllParents: the records of `id`'s registered ancestors, nearest first;
      empty for unknown identifiers and for roots. */
  function GetAllParents(s: Store, id: ID): (r: seq<Item>)
    requires Valid(s)
    ensures id !in s.itemMap ==> r == []
    ensures id in s.itemMap ==> |r| == Height(s.itemMap, s.itemMap[id].parent)
    ensures |r| > 0 ==> Some(r[0].id) == s.itemMap[id].parent
    ensures forall i | 0 <= i < |r| - 1 :: r[i].parent == Some(r[i + 1].id)
    ensures forall i | 0 <= i < |r| :: r[i].id in s.itemMap && s.itemMap[r[i].id] == r[i]
    ensures forall a | a in s.itemMap :: a in IdSet(r) <==> Below(s.itemMap, id, a)
  {
    if id in s.itemMap then
      AncestorsOnPath(s.itemMap, s.itemMap[id].parent);
      Ancestors(s.itemMap, s.itemMap[id].parent)
    else
      []
  }
}

=== FILE: wrappers.dfy ===
/** Optional values and fallible results, used for nullable parents and for
    the errors the store throws. */
module Wrappers {

  datatype Option<+T> = None | Some(value: T)

  datatype Result<+R, +E> = Success(value: R) | Failure(error: E)
}
